=== FILE: README.md ===
# Staff Availability Finder — a Dafny model of its core

Staff Availability Finder reads a home-care service schedule from a
spreadsheet. It works out which staff member is free when on a chosen day.
This project models its two pure pieces of logic:

- **The daily availability calculator** (`calculateDailyAvailability`):
  - it keeps the schedule records of the selected day;
  - it reads each record's busy interval from the first two `H:MM` readings of its time cell;
  - it widens every busy interval by a buffer, then sorts and merges the widened intervals;
  - it walks the working day 07:00–22:00 and reports the free gaps.

  The `processedAvailability` memo in `src/App.jsx:298-437` is a line-for-line copy of the same function. `Availability.CalculateDailyAvailability` models both.
- **Loading a workbook** (`handleFileUpload`):
  - it trims the column names;
  - it detects the date, time-range and caregiver columns by name, using a two-pass content check for the time column;
  - it rewrites every row under the canonical names `服務日期`, `服務時間`, `服務人員`;
  - it builds the staff roster, either from a staff sheet or from the distinct names in the schedule.
- **The free-window filter** (`filteredStaffList`): it keeps the staff with a free interval that contains a requested slot.

Modules follow the program's structure:

| file | module | what it holds |
|---|---|---|
| `wrappers.dfy` | `Wrappers` | `Option`, `Result` |
| `text.dfy` | `Text` | digits, `includes`, `trim`, decimal rendering |
| `rows.dfy` | `Rows` | cell values, JavaScript truthiness, rows as ordered (name, value) cells, property read and assignment, object spread, `normalizeKeys` |
| `timescan.dfy` | `TimeScan` | the global match of `/(\d{1,2}:\d{2})/g` as a left-to-right scanner, `isTimeRangeValue`, the busy range of a cell |
| `intervals.dfy` | `Intervals` | the sort by start, the merge, and the free-gap walk |
| `measure.dfy` | `Measure` | counting minutes, and total widths |
| `availability.dfy`, `availability_lemmas.dfy` | `Availability`, `AvailabilityLemmas` | the calculator and what it promises |
| `detection.dfy`, `detection_lemmas.dfy` | `Detection`, `DetectionLemmas` | column detection and what it promises |
| `roster.dfy` | `Roster` | the staff roster |
| `upload.dfy` | `Upload` | canonical rows and the upload data path |
| `filter.dfy` | `FreeFilter` | the free-window filter |
| `findings.dfy` | `Findings` | the reversed-cell defect and the corrected calculation |

Instants are whole minutes from local midnight of the selected day, so `setHours(h, m)` is `h*60 + m`. Intervals are read half-open: minute `t` is covered when `start <= t < end`.

Three environment facts are parameters:
- The date library is the `DateEnv` pair of functions. They model `new Date(x)` formatted as a local `yyyy-MM-dd` day, or `None` for an Invalid Date.
- Whether the selected day itself parses is a boolean, `dayValid`.
- The buffer is an integer number of minutes.

## Model

| member | source | states |
|---|---|---|
| Availability.CalculateDailyAvailability | src/utils/availability.js:8-131 | an empty date or a missing schedule gives no entries; otherwise, when the date filter throws on any schedule row (an invalid `Date` cell), the whole roster gets no entries; when it does not, every staff member gets one entry, in roster order, carrying that member; in every entry the blocks are sorted and strictly apart, each free interval has positive width inside [07:00, 22:00), and `isFullyFree` holds exactly when `busyRaw` is empty |
| AvailabilityLemmas.EntryIndependent | src/utils/availability.js:33-126 | each member's entry is the entry a roster holding only that member would get, so entries do not depend on one another |
| AvailabilityLemmas.EntryTilesWorkingDay | src/utils/availability.js:96-117 | for every member on a day that parses, a minute of [07:00, 22:00) is free exactly when no block covers it |
| Availability.MatchDate | src/utils/availability.js:13-30 | an Invalid `Date` object is the only thing that throws; a valid `Date` object is kept exactly when its local day is the selected day; a string date is kept exactly when it is non-empty and contains the selected day or parses to it; a non-zero number is kept exactly when it parses to the selected day; a kept record has a truthy date |
| Availability.DailyRecords | src/utils/availability.js:13-30 | the filter throws exactly when some record throws; otherwise the result holds exactly the schedule records the date test keeps (order and repetition are stated by `DailyRecordsAppend`) |
| AvailabilityLemmas.DailyRecordsAppend | src/utils/availability.js:13-30 | the filter works record by record: filtering a concatenation filters each part and concatenates the kept records, so they keep schedule order and repetition, and the whole throws exactly when a part throws |
| AvailabilityLemmas.DailyRecordsOne | src/utils/availability.js:13-30 | a single record is kept, dropped, or makes the filter throw, as the date test decides |
| Availability.BusyOf | src/utils/availability.js:38-65 | a record contributes a busy interval exactly when the selected day is valid and its time cell is a string with at least two readings; the interval runs from the first reading to the second, in minutes |
| Availability.BusyIntervals | src/utils/availability.js:34-66 | `busyRaw` holds exactly the busy intervals of the records whose staff cell is strictly equal to the member's name (order and repetition are stated by `BusyIntervalsAppend`) |
| AvailabilityLemmas.BusyIntervalsAppend | src/utils/availability.js:37-66 | `busyRaw` is built record by record: every record of the member contributes its own interval, in record order, duplicates included |
| AvailabilityLemmas.BusyIntervalsOne | src/utils/availability.js:37-66 | a single record contributes its interval exactly when it is the member's and its time cell gives one |
| Availability.BlockedOf | src/utils/availability.js:78-93 | the blocks are sorted by start and strictly apart; there are none exactly when nothing is busy |
| Availability.ForStaff | src/utils/availability.js:33-125 | every free interval has positive width and lies inside [07:00, 22:00); the blocks are sorted and strictly apart |
| AvailabilityLemmas.BlockedCoverage | src/utils/availability.js:69-93 | a minute is blocked exactly when it lies within `buffer` minutes of some busy interval |
| AvailabilityLemmas.BlockedWellFormed | src/utils/availability.js:69-93 | with a non-negative buffer and forward busy intervals, no block ends before it starts |
| AvailabilityLemmas.BlockedWide | src/utils/availability.js:69-93 | with a non-negative buffer and busy intervals of positive length, every block covers at least one minute |
| AvailabilityLemmas.FreeTilesWorkingDay | src/utils/availability.js:96-117 | a minute of the working day is free exactly when no block covers it, so the free and blocked intervals tile [07:00, 22:00) |
| AvailabilityLemmas.FreeSortedDisjoint | src/utils/availability.js:96-117 | when every busy interval runs forwards and the buffer is not negative, the free intervals are sorted and pairwise disjoint |
| AvailabilityLemmas.NoBusyMeansFullyFree | src/utils/availability.js:115-124 | `isFullyFree` holds exactly when `busyRaw` is empty, whatever the buffer; then nothing is blocked and the whole day is one free interval |
| AvailabilityLemmas.BufferMonotoneBlocked | src/utils/availability.js:69-93 | a minute blocked under some buffer stays blocked under every larger buffer |
| AvailabilityLemmas.BufferMonotone | src/utils/availability.js:69-117 | a larger buffer never adds free minutes and never removes blocked minutes of the working day |
| AvailabilityLemmas.WorkedExample | create_dummy_excel.js:6 | the record `08:00~12:00` for 李大華 with a 30-minute buffer blocks 07:30–12:30 and leaves 07:00–07:30 and 12:30–22:00 free |
| AvailabilityLemmas.OneStaffDay | src/utils/availability.js:33-126 | with one staff member, the result is that member's availability over the day's records |
| TimeScan.MatchAt | src/utils/availability.js:43 | a match is one or two hour digits, a colon and two minute digits, read as those numbers; an attempt fails only when no such text starts at that position |
| TimeScan.Scan | src/utils/availability.js:43 | every reading has hour and minute below 100; the number of readings is at most a quarter of the text's length |
| TimeScan.ParseRange | src/utils/availability.js:39-47 | a cell gives a range exactly when it is a time-range value; the range is the first and second reading |
| TimeScan.SeparatorIndependent | create_hyphen_excel.js:4-5 | two readings with any digit-free text before, between and after them scan to exactly those two readings, so `09:00-10:00` and `13:00~14:30` both parse |
| TimeScan.ScanRendered | src/utils/availability.js:43 | a reading written as `H:MM` or `HH:MM` is matched whole, whatever text follows it |
| TimeScan.ScanOverlappingDigits | src/utils/availability.js:43 | the search resumes after a match, so `123:456` gives `23:45` alone |
| Intervals.SortByStart | src/utils/availability.js:78 | the sort is a permutation of its input and is sorted by start |
| Intervals.SortSorted | src/utils/availability.js:78 | already sorted input comes back unchanged |
| Intervals.SortStable | src/utils/availability.js:78 | the sort is stable: for every start minute, the blocks starting there keep their input order, so equal-start blocks reach the merge as the busy list had them |
| Intervals.Merge | src/utils/availability.js:80-93 | merged blocks are strictly apart, so touching blocks merge; there are never more blocks than went in, and none exactly when none went in |
| Intervals.MergeCoverage | src/utils/availability.js:80-93 | on sorted input the merged blocks cover exactly the minutes the input blocks cover |
| Intervals.MergeSorted | src/utils/availability.js:80-93 | merging sorted blocks keeps them sorted |
| Intervals.MergeIdempotent | src/utils/availability.js:80-93 | merging an already merged list returns it unchanged |
| Intervals.MergeFromSeparated | src/utils/availability.js:83-92 | blocks that are already strictly apart pass through the merge loop unchanged |
| Intervals.Gaps | src/utils/availability.js:102-117 | each gap has positive width and lies between the cursor and the window end; over well-formed blocks the gaps are sorted and disjoint |
| Intervals.GapsAvoidBlocks | src/utils/availability.js:105-113 | no free minute lies in a block |
| Intervals.GapsCover | src/utils/availability.js:105-117 | every minute of the window that no block covers is free |
| Intervals.GapsEndAtBlocks | src/utils/availability.js:107-116 | a free interval ends at the window end or where some block starts |
| Measure.WidthIsCount | src/utils/availability.js:102-117 | for disjoint intervals inside a window, the summed widths are the number of minutes covered |
| Rows.Lookup | src/App.jsx:127 | a missing property reads as absent; in an object, a property reads the value stored under its name |
| Rows.Put | src/App.jsx:127 | assignment makes the name read the new value and changes no other name; an existing name keeps its place, a new one is appended, and the names stay distinct |
| Rows.SpreadLastWins | src/App.jsx:226-231 | spreading a row leaves each of its properties holding the value of its last occurrence |
| Rows.SpreadKeepsBase | src/App.jsx:226-231 | properties the spread row does not mention keep the value they had before |
| Rows.SpreadDistinct | src/App.jsx:226-231 | spreading into an object gives an object with no repeated name |
| Rows.NormalizeKeysLookup | src/App.jsx:124-130 | the normalised row has distinct names; a name is present exactly when some original name trims to it, and it holds the value of the last such cell |
| Rows.NormalizeUnchanged | src/App.jsx:124-130 | a row whose names are distinct and already trimmed is its own normal form |
| Text.Trim | src/App.jsx:127 | the result is the input without leading and trailing JavaScript white space, and it neither starts nor ends with white space |
| Text.TrimIdempotent | src/App.jsx:127 | trimming twice trims nothing more |
| Text.Contains | src/App.jsx:138-139 | `includes` holds exactly when the keyword occurs at some position of the text |
| Text.DecimalOfNatToString | src/App.jsx:273 | reading back a rendered index gives the index |
| Text.NatToStringInjective | src/App.jsx:273 | distinct indices render to distinct strings |
| Detection.FirstWhere | src/App.jsx:136-141 | `find` gives nothing exactly when no key passes; otherwise it gives the first key in column order that passes |
| DetectionLemmas.FindKeyAt | src/App.jsx:136-141 | `findKey` returns the column at `i` when it is the first one with a wanted keyword and no unwanted one |
| DetectionLemmas.StaffKeyPreference | src/App.jsx:156-158 | a caregiver column wins whenever there is one; otherwise the generic name search decides; the chosen column never names an identifier |
| Detection.NonEmptyValues | src/App.jsx:172 | the sample holds exactly the truthy values of the column among the rows (its length, the threshold denominator, is stated by `NonEmptyValuesAppend`) |
| DetectionLemmas.NonEmptyValuesAppend | src/App.jsx:197 | the sample is taken row by row: each row with a truthy cell in the column gives one value, in row order, so the sample's length is the number of such rows |
| DetectionLemmas.NonEmptyValuesOne | src/App.jsx:197 | one row gives its cell when the cell is truthy, and nothing otherwise |
| Detection.RangeCount | src/App.jsx:198 | the count never exceeds the number of values, and is zero exactly when no value is a time range |
| DetectionLemmas.RangeCountAppend | src/App.jsx:198 | the count adds up over a concatenation, so it counts each time-range value once |
| DetectionLemmas.RangeCountOne | src/App.jsx:198 | a single value counts one exactly when it is a time range |
| Detection.TimeCandidates | src/App.jsx:163-165 | the candidates are exactly the columns whose name mentions a time keyword |
| DetectionLemmas.InitialTimeKeyChoice | src/App.jsx:167-189 | the first pass picks the first candidate column, in column order, that holds a time range among the first ten rows; the name-only fallback is used only when no column does |
| Detection.Revalidate | src/App.jsx:196-214 | a key changes only when it was found and fails validation; it is then the first majority column; a key is never cleared |
| DetectionLemmas.RevalidateReplacement | src/App.jsx:196-214 | a key that passes validation stays; a replacement is a different column of the sheet in which most sampled values are ranges |
| DetectionLemmas.FailingIsNotMajority | src/App.jsx:200-207 | no column is both too poor in ranges to keep and rich enough to switch to |
| DetectionLemmas.SingleRowKeeps | src/App.jsx:200 | validation needs more than five non-empty samples, so a one-row sheet keeps its first-pass column |
| DetectionLemmas.DetectColumnsOutcome | src/App.jsx:119-221 | detection succeeds exactly on a non-empty sheet where all three columns are found; on success the date, time and staff columns are all non-empty names of the trimmed first row |
| DetectionLemmas.TimeKeyInKeys | src/App.jsx:167-214 | both passes choose the time column among the sheet's own names |
| DetectionLemmas.ComplexSheetDetection | create_complex_excel.js:7-8 | on the complex sheet detection picks `服務時間起迄`, not the numeric `核定服務時間` before it, along with the caregiver and date columns |
| Upload.CanonicalRowLookup | src/App.jsx:226-231 | each canonical field holds the detected column's value, unless the row already has a column of exactly that name, which wins; every other column keeps its value; names stay distinct |
| Upload.Load | src/App.jsx:119-274 | loading fails exactly when detection fails, with the same error; otherwise every schedule row is rewritten |
| Upload.LoadedRecords | src/App.jsx:192-274 | every loaded record carries the detected columns under the canonical names, and a staff sheet, when present, gives the roster |
| Roster.KeepNamed | src/App.jsx:267-270 | the roster holds exactly the staff-sheet rows whose name does not resolve to `Unknown Name`, with the placeholders (order and repetition are stated by `KeepNamedAppend`) |
| Roster.KeepNamedAppend | src/App.jsx:267-270 | the roster is built row by row: every staff row with a name gives one member, in sheet order, duplicates included |
| Roster.KeepNamedOne | src/App.jsx:267-270 | a single row gives its member, with the placeholders, unless the name resolves to `Unknown Name` |
| Roster.SheetKey | src/App.jsx:264-265 | the name or id column is the first name of the first row that mentions one of the keywords, or the default when none does |
| Roster.TableRoster | src/App.jsx:262-270 | with a staff sheet, the roster holds exactly the members of its rows under the detected name and id columns (`姓名` and `員編` by default), without those named `Unknown Name` |
| Roster.BuildRoster | src/App.jsx:259-274 | a staff sheet with a row gives the roster, and no member named `Unknown Name`; without one the derived roster is used, and no two of its members share a name or an id |
| Roster.DistinctNames | src/App.jsx:272 | the set holds each truthy name once, and nothing else |
| Roster.DistinctNamesInOrder | src/App.jsx:272 | the names come out in order of first occurrence |
| Roster.GeneratedRoster | src/App.jsx:273 | the `i`-th derived staff member has id `GEN-i` |
| Roster.GeneratedRosterNames | src/App.jsx:271-274 | the derived roster names exactly the truthy staff cells of the schedule |
| Roster.GeneratedRosterDistinct | src/App.jsx:271-274 | no two derived staff members share a name or an id |
| Roster.GeneratedRosterOrder | src/App.jsx:271-274 | the derived roster keeps the order in which names first appear in the schedule |
| Roster.RosterFallbackExample | src/App.jsx:271-274 | 王小明, 李大華, 王小明 and no staff sheet give two staff, `GEN-0` and `GEN-1` |
| FreeFilter.ClockFieldRoundTrip | src/App.jsx:446-447 | a time written as `<hours>:<minutes>` reads back as that many minutes |
| FreeFilter.ClockFieldNeedsColon | src/App.jsx:446-447 | without a colon the minutes are undefined, so the date is invalid |
| FreeFilter.KeepQualifying | src/App.jsx:458-464 | the filter keeps exactly the entries with a qualifying free interval, and keeps everything when all entries qualify (order and repetition are stated by `KeepQualifyingAppend`) |
| FreeFilter.KeepQualifyingAppend | src/App.jsx:458-464 | the filter goes entry by entry: the qualifying entries keep their original order and multiplicity |
| FreeFilter.KeepQualifyingOne | src/App.jsx:458-464 | a single entry is kept exactly when it qualifies |
| FreeFilter.FilteredStaffList | src/App.jsx:441-470 | an empty bound gives null; an unparsable bound or day gives no one; otherwise exactly the entries with a qualifying free interval are kept (their order is stated by `FilteredStaffListAppend`) |
| FreeFilter.FilteredStaffListAppend | src/App.jsx:441-470 | filtering a concatenation of availability lists filters each part and concatenates, so the kept staff stay in their original order; null is null for every part |
| FreeFilter.QualifiesIsContainment | src/App.jsx:459-463 | for a proper slot and free intervals of positive length, the test is exactly containment of the slot in one free interval |
| FreeFilter.EmptySlotNeedsInterior | src/App.jsx:459-463 | an empty slot qualifies only strictly inside a free interval, because touching an end is not overlap |
| FreeFilter.FilterMeansUnblocked | src/App.jsx:458-464 | for a proper slot inside the working day, a staff member passes exactly when no minute of the slot is blocked |
| Findings.ReversedCellOverlaps | src/utils/availability.js:60-117 | as written, the cell `10:00~09:00` with no buffer gives the free intervals 07:00–10:00 and 09:00–22:00, which overlap |
| Findings.DropReversed | src/utils/availability.js:63-64 | the corrected busy list holds exactly the forward intervals and equals the original list when every interval runs forwards (order and repetition are stated by `DropReversedAppend`) |
| Findings.DropReversedAppend | src/utils/availability.js:63-64 | reversed intervals are dropped one by one: the forward ones keep their order and multiplicity |
| Findings.DropReversedOne | src/utils/availability.js:63-64 | a single interval is kept exactly when it runs forwards |
| Findings.ForStaffCorrected | src/utils/availability.js:33-125 | with reversed cells left out, the busy intervals run forwards and, with a non-negative buffer, the free intervals are sorted and disjoint |
| Findings.CalculateCorrected | src/utils/availability.js:8-131 | the corrected calculation has the original's entries, and is equal to the original for every member whose cells run forwards; with a non-negative buffer no member's free intervals overlap |

## Left out

- Reading files: `FileReader`, `XLSX.read` and `sheet_to_json` are left out. The rows they produce are the input. The `create_*_excel.js` scripts only write workbooks; their rows appear only as examples.
- The UI, React state and `useMemo` are left out. Each memo is a pure function of its inputs.
- Date construction, parsing and `format` are left out, along with time zones and daylight saving. They are the `DateEnv` parameter and the `dayValid` flag.
- A `Date` object in a cell carries its formatted day and an identity. Two `Date` objects are `===` only when they are the same object.
- Numbers have no NaN. `Number(part)` in the filter is modelled for digit strings only (the empty string reads as 0). Any other text, including signs, spaces and decimals, reads as NaN.
- The buffer is a whole number of minutes.
- The date-range hint (`src/App.jsx:239-255`) is left out. It is a min/max over JavaScript dates. It feeds the range message and the initial selected date (`src/App.jsx:281-285`); the model takes the selected date as an input.
- `console` output is left out. So are the re-thrown error's text and the alert. The two detection errors are values of `DetectError`.
- Object property order is modelled as insertion order. JavaScript lists integer-like names such as `"1"` first; spreadsheet headers of that form are not modelled.
- `Object.keys` on a row sees only its own properties. Prototype names such as `"constructor"` read as absent.
- There is no weekly aggregation in the core.
- AvailabilityLemmas.FreeSortedDisjoint: requires every busy interval to run forwards and a non-negative buffer. A reversed cell breaks the property, as the finding below shows.
- FreeFilter.FilterMeansUnblocked: requires busy intervals of positive length and a non-negative buffer. A zero-length busy interval (`09:00~09:00`) splits the free time without blocking any minute.
- AvailabilityLemmas.BufferMonotone: requires forward busy intervals and a non-negative smaller buffer. The buffer field accepts a typed negative number (`src/App.jsx:531-534`), and a negative buffer shrinks each busy interval, possibly into a reversed block; the lemma does not cover that case. With reversed cells the free intervals overlap, and their summed width no longer counts free minutes.
- `areIntervalsOverlapping` is modelled as in date-fns 3: both intervals are put in order first, and touching ends do not overlap. Version 2 throws on a reversed interval; that would make the filter's catch return no one.

Two details the model follows from the code:
- The first-pass content scan looks at the first ten raw rows and then drops the empty ones. It does not look at the first ten non-empty rows. The scan also reads each raw row with the trimmed column name.
- The roster derived from the schedule lists names in order of first occurrence.

## Findings

| source | as written | input that shows it | evidently intended | confidence | as-written member | corrected member |
|---|---|---|---|---|---|---|
| src/utils/availability.js:60-117 | a time cell whose second reading is earlier than its first becomes a reversed busy interval; the merge keeps it and the gap walk emits two free intervals around it | time cell `10:00~09:00`, buffer 0: free 07:00–10:00 and 09:00–22:00, which overlap during 09:00–10:00 | free intervals never overlap; a reversed cell contributes no busy time | not executed | Findings.ReversedCellOverlaps | Findings.CalculateCorrected |

=== FILE: availability.dfy ===
/**
 * The daily availability calculator: for one selected day, the busy,
 * blocked (buffered and merged) and free intervals of every staff member.
 */
module Availability {
  import opened Wrappers
  import opened Text
  import opened Rows
  import opened TimeScan
  import opened Intervals
  import opened Measure

  /** The working day runs from 07:00 to 22:00. */
  const StartOfDay: int := 7
  const EndOfDay: int := 22
  const DayStart: int := StartOfDay * 60
  const DayEnd: int := EndOfDay * 60

  /** The canonical column names every schedule record carries. */
  const DateField: string := "服務日期"
  const TimeField: string := "服務時間"
  const StaffField: string := "服務人員"

  /**
   * The date library, left abstract: `parseString(s)` is `new Date(s)` formatted
   * as a local `yyyy-MM-dd` day, `None` when the result is an Invalid Date; the
   * same for `fromNumber` on `new Date(n)`.
   */
  datatype DateEnv = DateEnv(parseString: string -> Option<string>, fromNumber: real -> Option<string>)

  datatype Staff = Staff(id: Value, name: Value)

  datatype DailyAvailability = DailyAvailability(
    staff: Staff,
    busyRaw: seq<Interval>,
    blocked: seq<Block>,
    free: seq<Interval>,
    isFullyFree: bool)

  /** The verdict of the date filter on one record; `Throws` aborts the whole calculation. */
  datatype DateMatch = Keep | Drop | Throws

  /**
   * The date filter: an empty date drops the record; a `Date` object is compared
   * by its local day (formatting an Invalid Date throws); a string containing
   * the selected day is kept; otherwise the value is parsed and its day compared.
   */
  function MatchDate(rec: Row, dateStr: string, env: DateEnv): (m: DateMatch)
    ensures m == Keep ==> Truthy(Lookup(rec, DateField))
    ensures Lookup(rec, DateField) == Some(Str(dateStr)) && dateStr != "" ==> m == Keep
    ensures m == Throws <==> Lookup(rec, DateField).Some? && Lookup(rec, DateField).value.DateVal?
                             && Lookup(rec, DateField).value.day.None?
    ensures Lookup(rec, DateField).Some? && Lookup(rec, DateField).value.Str? ==>
              var s := Lookup(rec, DateField).value.s;
              m == Keep <==> s != "" && (Contains(s, dateStr) || env.parseString(s) == Some(dateStr))
    ensures Lookup(rec, DateField).Some? && Lookup(rec, DateField).value.DateVal?
            && Lookup(rec, DateField).value.day.Some? ==>
              (m == Keep <==> Lookup(rec, DateField).value.day.value == dateStr)
    ensures Lookup(rec, DateField).Some? && Lookup(rec, DateField).value.Num? && Lookup(rec, DateField).value.n != 0.0 ==>
              (m == Keep <==> env.fromNumber(Lookup(rec, DateField).value.n) == Some(dateStr))
  {
    var d := Lookup(rec, DateField);
    if !Truthy(d) then Drop
    else match d.value
      case DateVal(day, _) =>
        if day.None? then Throws else if day.value == dateStr then Keep else Drop
      case Str(s) =>
        assert s == dateStr ==> dateStr <= s[0..];
        if Contains(s, dateStr) || s == dateStr then Keep
        else if env.parseString(s) == Some(dateStr) then Keep
        else Drop
      case Num(n) =>
        if env.fromNumber(n) == Some(dateStr) then Keep else Drop
  }

  /** The records of the selected day, in schedule order; `None` when the filter throws. */
  function DailyRecords(schedule: seq<Row>, dateStr: string, env: DateEnv): (r: Option<seq<Row>>)
    ensures r.None? <==> exists rec :: rec in schedule && MatchDate(rec, dateStr, env) == Throws
    ensures r.Some? ==> forall rec :: rec in r.value <==> rec in schedule && MatchDate(rec, dateStr, env) == Keep
  {
    if |schedule| == 0 then Some([])
    else
      var init := schedule[..|schedule| - 1];
      var last := schedule[|schedule| - 1];
      assert schedule == init + [last];
      match DailyRecords(init, dateStr, env)
      case None => None
      case Some(kept) =>
        match MatchDate(last, dateStr, env)
        case Throws => None
        case Keep => Some(kept + [last])
        case Drop => Some(kept)
  }

  /**
   * The busy interval one record contributes: its time cell's first two
   * readings, placed on the selected day. When the selected day itself does not
   * parse every reading is an Invalid Date and nothing is contributed.
   */
  function BusyOf(rec: Row, dayValid: bool): (r: Option<Interval>)
    ensures r.Some? <==> dayValid && IsTimeRange(Lookup(rec, TimeField))
    ensures r.Some? ==> var cell := Lookup(rec, TimeField).value.s;
                        r.value == Interval(Scan(cell)[0].Minutes(), Scan(cell)[1].Minutes())
  {
    if !dayValid then None
    else match ParseRange(Lookup(rec, TimeField))
      case None => None
      case Some((a, b)) => Some(Interval(a.Minutes(), b.Minutes()))
  }

  /** A record belongs to a staff member when its staff cell is strictly equal to the name. */
  predicate BelongsTo(rec: Row, name: Value) {
    Lookup(rec, StaffField) == Some(name)
  }

  /** `busyRaw`: the busy intervals of one staff member, in record order. */
  function BusyIntervals(records: seq<Row>, name: Value, dayValid: bool): (r: seq<Interval>)
    ensures |r| <= |records|
    ensures forall iv :: iv in r <==> exists rec :: rec in records && BelongsTo(rec, name) && BusyOf(rec, dayValid) == Some(iv)
  {
    if |records| == 0 then []
    else
      var init := records[..|records| - 1];
      var last := records[|records| - 1];
      assert records == init + [last];
      var prev := BusyIntervals(init, name, dayValid);
      if BelongsTo(last, name) && BusyOf(last, dayValid).Some? then prev + [BusyOf(last, dayValid).value]
      else prev
  }

  /** Widens a busy interval by `buffer` minutes on both sides, remembering the original. */
  function Buffered(iv: Interval, buffer: int): Block {
    Block(iv.start - buffer, iv.end + buffer, iv.start, iv.end)
  }

  function BufferAll(busy: seq<Interval>, buffer: int): (r: seq<Block>)
    ensures |r| == |busy| && forall i :: 0 <= i < |busy| ==> r[i] == Buffered(busy[i], buffer)
  {
    seq(|busy|, i requires 0 <= i < |busy| => Buffered(busy[i], buffer))
  }

  /** `blocked`: the buffered busy intervals, sorted by start and merged. */
  function BlockedOf(busy: seq<Interval>, buffer: int): (r: seq<Block>)
    ensures SortedByStart(r) && Separated(r)
    ensures |r| <= |busy| && (|r| == 0 <==> |busy| == 0)
  {
    var sorted := SortByStart(BufferAll(busy, buffer));
    MergeSorted(sorted);
    assert |sorted| == |busy| by {
      assert |multiset(sorted)| == |multiset(BufferAll(busy, buffer))|;
    }
    Merge(sorted)
  }

  /** The availability of one staff member on the selected day. */
  function ForStaff(staff: Staff, records: seq<Row>, dayValid: bool, buffer: int): (d: DailyAvailability)
    ensures d.staff == staff
    ensures forall i :: 0 <= i < |d.free| ==> DayStart <= d.free[i].start < d.free[i].end <= DayEnd
    ensures SortedByStart(d.blocked) && Separated(d.blocked)
    ensures d.isFullyFree <==> d.busyRaw == []
  {
    var busy := BusyIntervals(records, staff.name, dayValid);
    var blocked := BlockedOf(busy, buffer);
    var free := if dayValid then Gaps(blocked, DayStart, DayEnd) else [];
    DailyAvailability(staff, busy, blocked, free, |busy| == 0)
  }

  /**
   * `calculateDailyAvailability(dateStr, scheduleData, staffData, buffer)`: one
   * entry per staff member, in roster order; no entries for an empty date or a
   * missing schedule, or when the date filter throws.
   */
  function CalculateDailyAvailability(dateStr: string, schedule: Option<seq<Row>>, staffData: seq<Staff>,
                                      buffer: int, env: DateEnv): (r: seq<DailyAvailability>)
    ensures dateStr == "" || schedule.None? ==> r == []
    ensures r == [] || |r| == |staffData|
    ensures |r| == |staffData| ==> forall i :: 0 <= i < |r| ==> r[i].staff == staffData[i]
    ensures dateStr != "" && schedule.Some? && DailyRecords(schedule.value, dateStr, env).Some? ==> |r| == |staffData|
    ensures dateStr != "" && schedule.Some? && DailyRecords(schedule.value, dateStr, env).None? ==> r == []
    ensures forall i :: 0 <= i < |r| ==>
              && SortedByStart(r[i].blocked) && Separated(r[i].blocked)
              && (r[i].isFullyFree <==> r[i].busyRaw == [])
              && forall k :: 0 <= k < |r[i].free| ==> DayStart <= r[i].free[k].start < r[i].free[k].end <= DayEnd
  {
    if dateStr == "" || schedule.None? then []
    else match DailyRecords(schedule.value, dateStr, env)
      case None => []
      case Some(records) =>
        var dayValid := env.parseString(dateStr).Some?;
        seq(|staffData|, i requires 0 <= i < |staffData| => ForStaff(staffData[i], records, dayValid, buffer))
  }
}

=== FILE: availability_lemmas.dfy ===
/** Properties of the daily availability calculator. */
module AvailabilityLemmas {
  import opened Wrappers
  import opened Rows
  import opened TimeScan
  import opened Intervals
  import opened Measure
  import opened Availability

  /** No busy interval ends before it starts. */
  predicate Ordered(busy: seq<Interval>) {
    forall i :: 0 <= i < |busy| ==> busy[i].start <= busy[i].end
  }

  /**
   * The blocked intervals cover exactly the minutes within `buffer` minutes of a
   * busy interval: buffering widens by exactly `buffer` on both sides, and the
   * sort and the merge neither add nor lose a minute.
   */
  lemma BlockedCoverage(busy: seq<Interval>, buffer: int, t: int)
    ensures InBlocks(BlockedOf(busy, buffer), t)
        <==> exists iv :: iv in busy && iv.start - buffer <= t < iv.end + buffer
  {
    var raw := BufferAll(busy, buffer);
    var sorted := SortByStart(raw);
    MergeCoverage(sorted, t);
    SortKeepsCoverage(raw, t);
    if InBlocks(raw, t) {
      var b :| b in raw && b.start <= t < b.end;
      var i :| 0 <= i < |raw| && raw[i] == b;
      assert busy[i] in busy;
    }
    if exists iv :: iv in busy && iv.start - buffer <= t < iv.end + buffer {
      var iv :| iv in busy && iv.start - buffer <= t < iv.end + buffer;
      var i :| 0 <= i < |busy| && busy[i] == iv;
      assert raw[i] in raw;
    }
  }

  /** Ordered busy intervals and a non-negative buffer give well-formed blocks. */
  lemma BlockedWellFormed(busy: seq<Interval>, buffer: int)
    requires Ordered(busy) && buffer >= 0
    ensures WellFormed(BlockedOf(busy, buffer))
  {
    var raw := BufferAll(busy, buffer);
    SortKeepsWellFormed(raw);
    MergeWellFormed(SortByStart(raw));
  }

  /** Busy intervals that each take at least a minute. */
  predicate Positive(busy: seq<Interval>) {
    forall i :: 0 <= i < |busy| ==> busy[i].start < busy[i].end
  }

  /** Busy intervals of positive length and a non-negative buffer give blocks of positive length. */
  lemma BlockedWide(busy: seq<Interval>, buffer: int)
    requires Positive(busy) && buffer >= 0
    ensures Wide(BlockedOf(busy, buffer))
  {
    var raw := BufferAll(busy, buffer);
    SortKeepsWide(raw);
    MergeWide(SortByStart(raw));
  }

  /**
   * Free and blocked tile the working day: a minute of [07:00, 22:00) is free
   * exactly when no blocked interval covers it.
   */
  lemma FreeTilesWorkingDay(staff: Staff, records: seq<Row>, buffer: int, t: int)
    requires DayStart <= t < DayEnd
    ensures var d := ForStaff(staff, records, true, buffer);
            InIntervals(d.free, t) <==> !InBlocks(d.blocked, t)
  {
    var d := ForStaff(staff, records, true, buffer);
    if InIntervals(d.free, t) {
      GapsAvoidBlocks(d.blocked, DayStart, DayEnd, t);
    } else if !InBlocks(d.blocked, t) {
      GapsCover(d.blocked, DayStart, DayEnd, t);
    }
  }

  /**
   * When every busy interval starts no later than it ends (and the buffer is not
   * negative) the free intervals are sorted and pairwise disjoint.
   */
  lemma FreeSortedDisjoint(staff: Staff, records: seq<Row>, dayValid: bool, buffer: int)
    requires Ordered(BusyIntervals(records, staff.name, dayValid)) && buffer >= 0
    ensures Chain(ForStaff(staff, records, dayValid, buffer).free)
  {
    BlockedWellFormed(BusyIntervals(records, staff.name, dayValid), buffer);
  }

  /**
   * With no busy interval the member is fully free: nothing is blocked and the
   * whole working day is one free interval. `isFullyFree` means exactly that
   * `busyRaw` is empty, whatever the buffer.
   */
  lemma NoBusyMeansFullyFree(staff: Staff, records: seq<Row>, dayValid: bool, b1: int, b2: int)
    ensures var d := ForStaff(staff, records, dayValid, b1);
            && (d.isFullyFree <==> d.busyRaw == [])
            && (d.busyRaw == [] ==> d.blocked == [] && (dayValid ==> d.free == [Interval(DayStart, DayEnd)]))
            && d.isFullyFree == ForStaff(staff, records, dayValid, b2).isFullyFree
  {
  }

  /** A minute blocked under some buffer stays blocked under any larger buffer. */
  lemma BufferMonotoneBlocked(busy: seq<Interval>, b1: int, b2: int, t: int)
    requires b1 <= b2
    requires InBlocks(BlockedOf(busy, b1), t)
    ensures InBlocks(BlockedOf(busy, b2), t)
  {
    BlockedCoverage(busy, b1, t);
    BlockedCoverage(busy, b2, t);
  }

  /**
   * Buffer monotonicity: for the same records, a larger buffer never yields more
   * free minutes (total width of the free intervals) and never fewer blocked
   * minutes of the working day.
   */
  lemma BufferMonotone(staff: Staff, records: seq<Row>, b1: int, b2: int)
    requires 0 <= b1 <= b2
    requires Ordered(BusyIntervals(records, staff.name, true))
    ensures TotalWidth(ForStaff(staff, records, true, b2).free) <= TotalWidth(ForStaff(staff, records, true, b1).free)
    ensures Count(t => InBlocks(ForStaff(staff, records, true, b1).blocked, t), DayStart, DayEnd)
         <= Count(t => InBlocks(ForStaff(staff, records, true, b2).blocked, t), DayStart, DayEnd)
  {
    var d1 := ForStaff(staff, records, true, b1);
    var d2 := ForStaff(staff, records, true, b2);
    var busy := d1.busyRaw;
    FreeSortedDisjoint(staff, records, true, b1);
    FreeSortedDisjoint(staff, records, true, b2);
    WidthIsCount(d1.free, DayStart, DayEnd);
    WidthIsCount(d2.free, DayStart, DayEnd);
    forall t | DayStart <= t < DayEnd && InIntervals(d2.free, t) ensures InIntervals(d1.free, t) {
      FreeTilesWorkingDay(staff, records, b1, t);
      FreeTilesWorkingDay(staff, records, b2, t);
      if InBlocks(d1.blocked, t) {
        BufferMonotoneBlocked(busy, b1, b2, t);
      }
    }
    CountMonotone(t => InIntervals(d2.free, t), t => InIntervals(d1.free, t), DayStart, DayEnd);
    forall t | DayStart <= t < DayEnd && InBlocks(d1.blocked, t) ensures InBlocks(d2.blocked, t) {
      BufferMonotoneBlocked(busy, b1, b2, t);
    }
    CountMonotone(t => InBlocks(d1.blocked, t), t => InBlocks(d2.blocked, t), DayStart, DayEnd);
  }

  /** The sample record of the worked example. */
  function ExampleRecord(): Row {
    [Cell(DateField, Str("2023-12-15")), Cell(TimeField, Str("08:00~12:00")), Cell(StaffField, Str("李大華"))]
  }

  lemma ExampleLookups()
    ensures Lookup(ExampleRecord(), DateField) == Some(Str("2023-12-15"))
    ensures Lookup(ExampleRecord(), TimeField) == Some(Str("08:00~12:00"))
    ensures Lookup(ExampleRecord(), StaffField) == Some(Str("李大華"))
  {
    var rec := ExampleRecord();
    assert DateField[2] != TimeField[2] && DateField[2] != StaffField[2] && TimeField[2] != StaffField[2];
    assert IndexOf(rec, DateField) == Some(0);
    assert IndexOf(rec, TimeField) == Some(1);
    assert IndexOf(rec, StaffField) == Some(2);
  }

  lemma ExampleScan()
    ensures Scan("08:00~12:00") == [Clock(8, 0), Clock(12, 0)]
  {
    var cell := "08:00~12:00";
    assert MatchAt(cell) == Some((Clock(8, 0), 5));
    assert cell[5..] == "~12:00";
    assert MatchAt("~12:00") == None;
    assert "~12:00"[1..] == "12:00";
    assert MatchAt("12:00") == Some((Clock(12, 0), 5));
    assert "12:00"[5..] == "";
  }

  /** A record whose time cell scans to exactly two readings is busy between them. */
  lemma BusyOfCell(rec: Row, cell: string, c1: Clock, c2: Clock)
    requires Lookup(rec, TimeField) == Some(Str(cell)) && Scan(cell) == [c1, c2]
    ensures BusyOf(rec, true) == Some(Interval(c1.Minutes(), c2.Minutes()))
  {
    assert ParseRange(Lookup(rec, TimeField)) == Some((c1, c2));
  }

  /** One record of the staff member, busy at `iv`, gives exactly that busy interval. */
  lemma BusyOfOne(rec: Row, name: Value, iv: Interval)
    requires BelongsTo(rec, name) && BusyOf(rec, true) == Some(iv)
    ensures BusyIntervals([rec], name, true) == [iv]
  {
    assert [rec][..0] == [];
  }

  lemma ExampleBusy()
    ensures BusyIntervals([ExampleRecord()], Str("李大華"), true) == [Interval(480, 720)]
  {
    var rec := ExampleRecord();
    ExampleLookups();
    ExampleScan();
    BusyOfCell(rec, "08:00~12:00", Clock(8, 0), Clock(12, 0));
    BusyOfOne(rec, Str("李大華"), Interval(480, 720));
  }

  lemma ExampleBlocked()
    ensures BlockedOf([Interval(480, 720)], 30) == [Block(450, 750, 480, 720)]
    ensures Gaps([Block(450, 750, 480, 720)], DayStart, DayEnd) == [Interval(420, 450), Interval(750, 1320)]
  {
    assert BufferAll([Interval(480, 720)], 30) == [Block(450, 750, 480, 720)];
    assert [Block(450, 750, 480, 720)][..0] == [];
    assert SortByStart([Block(450, 750, 480, 720)]) == [Block(450, 750, 480, 720)];
  }

  /**
   * The worked example: a record `08:00~12:00` for 李大華 on 2023-12-15 with a
   * 30-minute buffer blocks 07:30-12:30 and leaves 07:00-07:30 and 12:30-22:00 free.
   */
  lemma WorkedExample(env: DateEnv)
    requires env.parseString("2023-12-15") == Some("2023-12-15")
    ensures var staff := Staff(Str("A002"), Str("李大華"));
            CalculateDailyAvailability("2023-12-15", Some([ExampleRecord()]), [staff], 30, env)
            == [DailyAvailability(staff, [Interval(480, 720)], [Block(450, 750, 480, 720)],
                                  [Interval(420, 450), Interval(750, 1320)], false)]
  {
    var staff := Staff(Str("A002"), Str("李大華"));
    var rec := ExampleRecord();
    ExampleLookups();
    KeptOne(rec, "2023-12-15", env);
    ExampleForStaff(staff);
    OneStaffDay("2023-12-15", [rec], [rec], staff, 30, env);
  }

  /** A single record of the selected day is kept. */
  lemma KeptOne(rec: Row, dateStr: string, env: DateEnv)
    requires Lookup(rec, DateField) == Some(Str(dateStr)) && dateStr != ""
    ensures DailyRecords([rec], dateStr, env) == Some([rec])
  {
    assert [rec][..0] == [] && [] + [rec] == [rec];
  }

  /** With one staff member the result is that member's availability on the day's records. */
  lemma OneStaffDay(dateStr: string, schedule: seq<Row>, records: seq<Row>, staff: Staff, buffer: int, env: DateEnv)
    requires dateStr != "" && DailyRecords(schedule, dateStr, env) == Some(records)
    requires env.parseString(dateStr).Some?
    ensures CalculateDailyAvailability(dateStr, Some(schedule), [staff], buffer, env) == [ForStaff(staff, records, true, buffer)]
  {
  }

  lemma ExampleForStaff(staff: Staff)
    requires staff.name == Str("李大華")
    ensures ForStaff(staff, [ExampleRecord()], true, 30)
            == DailyAvailability(staff, [Interval(480, 720)], [Block(450, 750, 480, 720)],
                                 [Interval(420, 450), Interval(750, 1320)], false)
  {
    ExampleBusy();
    ExampleBlocked();
  }
  /**
   * The date filter works record by record: filtering a concatenation is
   * filtering each part and concatenating, so the kept records keep their
   * schedule order and every kept record appears once per occurrence.
   */
  lemma {:induction false} DailyRecordsAppend(a: seq<Row>, b: seq<Row>, dateStr: string, env: DateEnv)
    ensures DailyRecords(a + b, dateStr, env).Some? <==> DailyRecords(a, dateStr, env).Some? && DailyRecords(b, dateStr, env).Some?
    ensures DailyRecords(a + b, dateStr, env).Some? ==>
              DailyRecords(a + b, dateStr, env).value == DailyRecords(a, dateStr, env).value + DailyRecords(b, dateStr, env).value
    decreases |b|
  {
    if |b| == 0 {
      assert a + b == a;
    } else {
      var init := b[..|b| - 1];
      var last := b[|b| - 1];
      SnocSplit(a, b);
      DailyRecordsAppend(a, init, dateStr, env);
      match DailyRecords(a + init, dateStr, env)
      case None =>
      case Some(ra) =>
        ConcatAssoc(DailyRecords(a, dateStr, env).value, DailyRecords(init, dateStr, env).value, [last]);
    }
  }

  /** One record is kept, dropped, or makes the filter throw, as the date test says. */
  lemma DailyRecordsOne(rec: Row, dateStr: string, env: DateEnv)
    ensures DailyRecords([rec], dateStr, env) == match MatchDate(rec, dateStr, env)
                                                 case Throws => None
                                                 case Keep => Some([rec])
                                                 case Drop => Some([])
  {
    assert [rec][..0] == [] && [] + [rec] == [rec];
  }

  /**
   * `busyRaw` is built record by record: every record of the member contributes
   * its own interval, in record order, duplicates included.
   */
  lemma {:induction false} BusyIntervalsAppend(a: seq<Row>, b: seq<Row>, name: Value, dayValid: bool)
    ensures BusyIntervals(a + b, name, dayValid) == BusyIntervals(a, name, dayValid) + BusyIntervals(b, name, dayValid)
    decreases |b|
  {
    if |b| == 0 {
      assert a + b == a;
    } else {
      var init := b[..|b| - 1];
      var last := b[|b| - 1];
      var extra := if BelongsTo(last, name) && BusyOf(last, dayValid).Some? then [BusyOf(last, dayValid).value] else [];
      assert BusyIntervals(a + b, name, dayValid) == BusyIntervals(a + init, name, dayValid) + extra by {
        SnocSplit(a, b);
      }
      BusyIntervalsAppend(a, init, name, dayValid);
      ConcatAssoc(BusyIntervals(a, name, dayValid), BusyIntervals(init, name, dayValid), extra);
    }
  }

  /** One record contributes its interval exactly when it is the member's and its cell gives one. */
  lemma BusyIntervalsOne(rec: Row, name: Value, dayValid: bool)
    ensures BusyIntervals([rec], name, dayValid)
            == if BelongsTo(rec, name) && BusyOf(rec, dayValid).Some? then [BusyOf(rec, dayValid).value] else []
  {
    assert [rec][..0] == [];
  }

  /**
   * Each staff member's entry depends on that member alone: it is the entry a
   * roster holding only that member would get.
   */
  lemma EntryIndependent(dateStr: string, schedule: Option<seq<Row>>, staffData: seq<Staff>, buffer: int, env: DateEnv, i: int)
    requires CalculateDailyAvailability(dateStr, schedule, staffData, buffer, env) != []
    requires 0 <= i < |staffData|
    ensures CalculateDailyAvailability(dateStr, schedule, [staffData[i]], buffer, env) != []
    ensures CalculateDailyAvailability(dateStr, schedule, staffData, buffer, env)[i]
            == CalculateDailyAvailability(dateStr, schedule, [staffData[i]], buffer, env)[0]
  {
    var records := DailyRecords(schedule.value, dateStr, env).value;
    var dayValid := env.parseString(dateStr).Some?;
    assert CalculateDailyAvailability(dateStr, schedule, staffData, buffer, env)[i] == ForStaff(staffData[i], records, dayValid, buffer);
    assert CalculateDailyAvailability(dateStr, schedule, [staffData[i]], buffer, env)[0] == ForStaff([staffData[i]][0], records, dayValid, buffer);
  }

  /**
   * For every staff member on a day that parses, free and blocked tile the
   * working day: a minute of [07:00, 22:00) is free exactly when no block
   * covers it.
   */
  lemma EntryTilesWorkingDay(dateStr: string, schedule: Option<seq<Row>>, staffData: seq<Staff>, buffer: int, env: DateEnv,
                             i: int, t: int)
    requires env.parseString(dateStr).Some?
    requires 0 <= i < |CalculateDailyAvailability(dateStr, schedule, staffData, buffer, env)|
    requires DayStart <= t < DayEnd
    ensures var d := CalculateDailyAvailability(dateStr, schedule, staffData, buffer, env)[i];
            InIntervals(d.free, t) <==> !InBlocks(d.blocked, t)
  {
    var records := DailyRecords(schedule.value, dateStr, env).value;
    assert CalculateDailyAvailability(dateStr, schedule, staffData, buffer, env)[i] == ForStaff(staffData[i], records, true, buffer);
    FreeTilesWorkingDay(staffData[i], records, buffer, t);
  }
}

=== FILE: detection.dfy ===
/**
 * Column detection: which columns of an unlabelled schedule sheet hold the
 * service date, the service time range and the caregiver's name.
 */
module Detection {
  import opened Wrappers
  import opened Text
  import opened Rows
  import opened TimeScan

  const DateKeywords: seq<string> := ["服務日期", "日期", "Date"]
  /** Caregiver roles, preferred over a generic name column. */
  const CaregiverKeywords: seq<string> := ["居服員", "照服員", "服務人員", "服務員"]
  const CaregiverExcluded: seq<string> := ["編號", "ID"]
  const NameKeywords: seq<string> := ["姓名", "Staff", "Name"]
  /** Identifiers, and names of the family, the client or the care recipient. */
  const NameExcluded: seq<string> := ["編號", "ID", "家屬", "案主", "受照顧者"]
  /** Column names that make a column a candidate for the time range. */
  const TimeCandidateKeywords: seq<string> := ["時間", "Time", "起迄", "區間", "排班"]
  const RangeKeywords: seq<string> := ["起迄", "起訖", "區間", "Range", "Start"]
  const ServiceTimeKeywords: seq<string> := ["服務時間", "Time"]
  /** Approved hours, totals, counts and durations are not time ranges. */
  const ServiceTimeExcluded: seq<string> := ["核定", "總", "數", "Total", "Count", "Duration"]
  const PlainTimeKeywords: seq<string> := ["時間"]
  const PlainTimeExcluded: seq<string> := ["核定", "總", "數"]

  /** Rows inspected by the content scan, and by the re-validation pass. */
  const ScanRows: nat := 10
  const SampleRows: nat := 50

  /** `keywords.some(kw => k.includes(kw))`. */
  predicate MentionsAny(k: string, keywords: seq<string>) {
    exists i :: 0 <= i < |keywords| && Contains(k, keywords[i])
  }

  /** The `findKey` test: some wanted keyword and no unwanted keyword. */
  predicate Admits(k: string, wanted: seq<string>, unwanted: seq<string>) {
    MentionsAny(k, wanted) && !MentionsAny(k, unwanted)
  }

  /** Key `i` is the first of `keys` that satisfies `p`. */
  predicate FirstSatisfying(keys: seq<string>, i: int, p: string -> bool) {
    0 <= i < |keys| && p(keys[i]) && forall j :: 0 <= j < i ==> !p(keys[j])
  }

  /** `keys.find(p)`: the first key in column order that satisfies `p`, if any. */
  function FirstWhere(keys: seq<string>, p: string -> bool): (r: Option<string>)
    ensures r.None? <==> forall i :: 0 <= i < |keys| ==> !p(keys[i])
    ensures r.Some? ==> exists i :: FirstSatisfying(keys, i, p) && keys[i] == r.value
  {
    if |keys| == 0 then None
    else if p(keys[0]) then
      assert FirstSatisfying(keys, 0, p);
      Some(keys[0])
    else
      var r := FirstWhere(keys[1..], p);
      assert forall i :: 1 <= i < |keys| ==> keys[i] == keys[1..][i - 1];
      if r.Some? then
        var i :| FirstSatisfying(keys[1..], i, p) && keys[1..][i] == r.value;
        assert FirstSatisfying(keys, i + 1, p);
        r
      else r
  }

  /** `findKey(keywords, exclude)`: the first key that mentions a wanted keyword and no unwanted one. */
  function FindKey(keys: seq<string>, wanted: seq<string>, unwanted: seq<string>): Option<string> {
    FirstWhere(keys, k => Admits(k, wanted, unwanted))
  }

  /** `rows.slice(0, n)`. */
  function Take(rows: seq<Row>, n: nat): (r: seq<Row>)
    ensures |r| <= n && |r| <= |rows| && r == rows[..|r|] && (|rows| >= n ==> |r| == n) && (|rows| < n ==> r == rows)
  {
    if |rows| <= n then rows else rows[..n]
  }

  /** `rows.filter(r => r[k])` read at `k`: the truthy values of column `k`, in row order. */
  function NonEmptyValues(rows: seq<Row>, k: string): (vs: seq<Value>)
    ensures |vs| <= |rows|
    ensures forall v :: v in vs <==> exists r :: r in rows && Lookup(r, k) == Some(v) && Truthy(Some(v))
  {
    if |rows| == 0 then []
    else
      var init := rows[..|rows| - 1];
      var last := rows[|rows| - 1];
      assert rows == init + [last];
      var prev := NonEmptyValues(init, k);
      if Truthy(Lookup(last, k)) then prev + [Lookup(last, k).value] else prev
  }

  /** How many of the values look like a time range. */
  function RangeCount(vs: seq<Value>): (n: nat)
    ensures n <= |vs|
    ensures n == 0 <==> forall i :: 0 <= i < |vs| ==> !IsTimeRange(Some(vs[i]))
  {
    if |vs| == 0 then 0
    else (if IsTimeRange(Some(vs[0])) then 1 else 0) + RangeCount(vs[1..])
  }

  /** The content test of the first pass: some non-empty value of column `k` is a time range. */
  predicate HasRangeValue(rows: seq<Row>, k: string) {
    RangeCount(NonEmptyValues(rows, k)) > 0
  }

  /** The time candidates, in column order. */
  function TimeCandidates(keys: seq<string>): (r: seq<string>)
    ensures forall k :: k in r <==> k in keys && MentionsAny(k, TimeCandidateKeywords)
  {
    if |keys| == 0 then []
    else
      var rest := TimeCandidates(keys[1..]);
      assert keys == [keys[0]] + keys[1..];
      if MentionsAny(keys[0], TimeCandidateKeywords) then [keys[0]] + rest else rest
  }

  /** The first candidate whose sample holds a range value. */
  function FirstRangeColumn(candidates: seq<string>, rows: seq<Row>): Option<string> {
    FirstWhere(candidates, k => HasRangeValue(rows, k))
  }

  /** The name-only fallback for the time column. */
  function FallbackTimeKey(keys: seq<string>): Option<string> {
    FindKey(keys, RangeKeywords, [])
      .OrElse(FindKey(keys, ServiceTimeKeywords, ServiceTimeExcluded))
      .OrElse(FindKey(keys, PlainTimeKeywords, PlainTimeExcluded))
  }

  /**
   * The first pass: the first candidate with a range value among the first ten
   * RAW rows (read with the trimmed name, as the source does), else the fallback.
   */
  function InitialTimeKey(keys: seq<string>, rawRows: seq<Row>): Option<string> {
    FirstRangeColumn(TimeCandidates(keys), Take(rawRows, ScanRows)).OrElse(FallbackTimeKey(keys))
  }

  /** `validCount < n * 0.2 && n > 5`: the column holds too few range values. */
  predicate FailsValidation(rows: seq<Row>, k: string) {
    var vs := NonEmptyValues(rows, k);
    5 * RangeCount(vs) < |vs| && |vs| > 5
  }

  /** `checkCount > n * 0.5`: more than half of the column's non-empty values are ranges. */
  predicate MostlyRanges(rows: seq<Row>, k: string) {
    var vs := NonEmptyValues(rows, k);
    2 * RangeCount(vs) > |vs|
  }

  /** The first column, over all columns, in which most values are ranges. */
  function FirstMajorityColumn(keys: seq<string>, rows: seq<Row>): Option<string> {
    FirstWhere(keys, k => MostlyRanges(rows, k))
  }

  /** A key is usable when it is present and not the empty string (which JavaScript reads as false). */
  predicate Found(k: Option<string>) {
    k.Some? && k.value != ""
  }

  /**
   * The second pass over the first fifty normalised rows: a chosen column that
   * fails validation is replaced by the first column where most values are
   * ranges, and kept when there is none.
   */
  function Revalidate(timeKey: Option<string>, keys: seq<string>, rows: seq<Row>): (r: Option<string>)
    ensures r.Some? <==> timeKey.Some?
    ensures r != timeKey ==> Found(timeKey) && FailsValidation(Take(rows, SampleRows), timeKey.value)
                             && r == FirstMajorityColumn(keys, Take(rows, SampleRows))
    ensures Found(timeKey) && FailsValidation(Take(rows, SampleRows), timeKey.value)
            && FirstMajorityColumn(keys, Take(rows, SampleRows)).Some?
            ==> r == FirstMajorityColumn(keys, Take(rows, SampleRows))
  {
    if !Found(timeKey) then timeKey
    else
      var sample := Take(rows, SampleRows);
      if FailsValidation(sample, timeKey.value) then FirstMajorityColumn(keys, sample).OrElse(timeKey)
      else timeKey
  }

  datatype Columns = Columns(dateKey: string, timeKey: string, staffKey: string)

  /** The two fatal errors: an empty schedule, or columns that could not be found (`None` or `""`). */
  datatype DetectError = EmptySchedule | MissingColumns(date: Option<string>, time: Option<string>, staff: Option<string>)

  function StaffKey(keys: seq<string>): Option<string> {
    FindKey(keys, CaregiverKeywords, CaregiverExcluded).OrElse(FindKey(keys, NameKeywords, NameExcluded))
  }

  function DateKey(keys: seq<string>): Option<string> {
    FindKey(keys, DateKeywords, [])
  }

  /** The detected time column, after both passes. */
  function TimeKey(keys: seq<string>, rawRows: seq<Row>): Option<string> {
    Revalidate(InitialTimeKey(keys, rawRows), keys, NormalizeAll(rawRows))
  }

  function NormalizeAll(rows: seq<Row>): (r: seq<Row>)
    ensures |r| == |rows| && forall i :: 0 <= i < |rows| ==> r[i] == NormalizeKeys(rows[i])
  {
    seq(|rows|, i requires 0 <= i < |rows| => NormalizeKeys(rows[i]))
  }

  /** The column names detection works with: those of the first row, trimmed. */
  function DetectionKeys(rawRows: seq<Row>): seq<string>
    requires |rawRows| > 0
  {
    Keys(NormalizeKeys(rawRows[0]))
  }

  /**
   * Detection: an empty schedule is an error; otherwise the three columns, or
   * an error that says which of them were found.
   */
  function DetectColumns(rawRows: seq<Row>): (r: Result<Columns, DetectError>)
    ensures r == Failure(EmptySchedule) <==> |rawRows| == 0
    ensures |rawRows| > 0 ==>
      var keys := DetectionKeys(rawRows);
      var d, t, s := DateKey(keys), TimeKey(keys, rawRows), StaffKey(keys);
      && (r.Failure? <==> !Found(d) || !Found(t) || !Found(s))
      && (r.Failure? ==> r.error == MissingColumns(d, t, s))
      && (r.Success? ==> r.value == Columns(d.value, t.value, s.value))
  {
    if |rawRows| == 0 then Failure(EmptySchedule)
    else
      var keys := DetectionKeys(rawRows);
      var d, t, s := DateKey(keys), TimeKey(keys, rawRows), StaffKey(keys);
      if !Found(d) || !Found(t) || !Found(s) then Failure(MissingColumns(d, t, s))
      else Success(Columns(d.value, t.value, s.value))
  }
}

=== FILE: detection_lemmas.dfy ===
/** What column detection promises, and the complex-sheet example worked through. */
module DetectionLemmas {
  import opened Wrappers
  import opened Text
  import opened Rows
  import opened TimeScan
  import opened Detection

  predicate IsTimeCandidate(k: string) {
    MentionsAny(k, TimeCandidateKeywords)
  }

  /** The content test of the first pass, on the scanned rows. */
  predicate ScanHit(sample: seq<Row>, k: string) {
    IsTimeCandidate(k) && HasRangeValue(sample, k)
  }

  /** Searching the candidates is searching all columns for a candidate that passes. */
  lemma {:induction false} FirstWhereCandidates(keys: seq<string>, sample: seq<Row>)
    ensures FirstWhere(TimeCandidates(keys), k => HasRangeValue(sample, k)) == FirstWhere(keys, k => ScanHit(sample, k))
    decreases |keys|
  {
    if |keys| > 0 {
      FirstWhereCandidates(keys[1..], sample);
      var rest := TimeCandidates(keys[1..]);
      if IsTimeCandidate(keys[0]) {
        assert TimeCandidates(keys) == [keys[0]] + rest;
        assert ([keys[0]] + rest)[1..] == rest;
      } else {
        assert TimeCandidates(keys) == rest;
      }
    }
  }

  /**
   * The first pass picks the first column, in column order, whose name makes it
   * a candidate and which holds a time range among the first ten rows; only when
   * no column does is the time column chosen by name alone.
   */
  lemma InitialTimeKeyChoice(keys: seq<string>, rawRows: seq<Row>)
    ensures var sample := Take(rawRows, ScanRows);
            var r := InitialTimeKey(keys, rawRows);
            && ((exists i :: 0 <= i < |keys| && ScanHit(sample, keys[i])) ==>
                  r.Some? && exists i :: FirstSatisfying(keys, i, k => ScanHit(sample, k)) && keys[i] == r.value)
            && ((forall i :: 0 <= i < |keys| ==> !ScanHit(sample, keys[i])) ==> r == FallbackTimeKey(keys))
  {
    FirstWhereCandidates(keys, Take(rawRows, ScanRows));
  }

  /** `find` returns the first key that satisfies the test. */
  lemma FirstWhereAt(keys: seq<string>, p: string -> bool, i: int)
    requires FirstSatisfying(keys, i, p)
    ensures FirstWhere(keys, p) == Some(keys[i])
  {
    var r := FirstWhere(keys, p);
    var j :| FirstSatisfying(keys, j, p) && keys[j] == r.value;
  }

  /**
   * A caregiver column wins over a generic name column whenever there is one;
   * the chosen staff column never names an identifier, and a generic name column
   * is never the family's, the client's or the care recipient's.
   */
  lemma StaffKeyPreference(keys: seq<string>)
    ensures (exists i :: 0 <= i < |keys| && Admits(keys[i], CaregiverKeywords, CaregiverExcluded)) ==>
              StaffKey(keys).Some? && Admits(StaffKey(keys).value, CaregiverKeywords, CaregiverExcluded)
    ensures (forall i :: 0 <= i < |keys| ==> !Admits(keys[i], CaregiverKeywords, CaregiverExcluded)) ==>
              StaffKey(keys) == FindKey(keys, NameKeywords, NameExcluded)
    ensures StaffKey(keys).Some? ==> StaffKey(keys).value in keys && !MentionsAny(StaffKey(keys).value, CaregiverExcluded)
  {
    var c := FindKey(keys, CaregiverKeywords, CaregiverExcluded);
    var n := FindKey(keys, NameKeywords, NameExcluded);
    if c.None? && n.Some? {
      var k := n.value;
      assert !MentionsAny(k, NameExcluded);
      forall i | 0 <= i < |CaregiverExcluded| ensures !Contains(k, CaregiverExcluded[i]) {
        assert CaregiverExcluded[i] == NameExcluded[i];
      }
    }
  }

  /**
   * Re-validation never loses a column: a usable column stays usable, and when it
   * is replaced the replacement is a different column in which most sampled
   * values are time ranges.
   */
  lemma RevalidateReplacement(timeKey: Option<string>, keys: seq<string>, rows: seq<Row>)
    ensures var r := Revalidate(timeKey, keys, rows);
            var sample := Take(rows, SampleRows);
            && (!Found(timeKey) ==> r == timeKey)
            && (Found(timeKey) ==> r.Some?)
            && (r != timeKey ==> r.value in keys && MostlyRanges(sample, r.value) && r.value != timeKey.value)
            && (Found(timeKey) && !FailsValidation(sample, timeKey.value) ==> r == timeKey)
  {
  }

  /** A column is never both too poor in ranges to keep and rich enough to switch to. */
  lemma FailingIsNotMajority(rows: seq<Row>, k: string)
    ensures FailsValidation(rows, k) ==> !MostlyRanges(rows, k)
  {
  }

  /** Detection fails exactly on an empty sheet or when a column is not found. */
  lemma DetectColumnsOutcome(rawRows: seq<Row>)
    ensures DetectColumns(rawRows).Success? <==>
              |rawRows| > 0 && Found(DateKey(DetectionKeys(rawRows)))
              && Found(TimeKey(DetectionKeys(rawRows), rawRows)) && Found(StaffKey(DetectionKeys(rawRows)))
    ensures DetectColumns(rawRows).Success? ==>
              var c := DetectColumns(rawRows).value;
              var keys := DetectionKeys(rawRows);
              c.dateKey in keys && c.timeKey in keys && c.staffKey in keys
              && c.dateKey != "" && c.timeKey != "" && c.staffKey != ""
  {
    if |rawRows| > 0 {
      var keys := DetectionKeys(rawRows);
      StaffKeyPreference(keys);
      TimeKeyInKeys(keys, rawRows);
    }
  }

  /** `find` only ever returns an element of the list it searches. */
  lemma FirstWhereIn(keys: seq<string>, p: string -> bool)
    ensures FirstWhere(keys, p).Some? ==> FirstWhere(keys, p).value in keys
  {
    if FirstWhere(keys, p).Some? {
      var i :| FirstSatisfying(keys, i, p) && keys[i] == FirstWhere(keys, p).value;
    }
  }

  /** The first pass chooses among the sheet's own names. */
  lemma InitialTimeKeyInKeys(keys: seq<string>, rawRows: seq<Row>)
    ensures InitialTimeKey(keys, rawRows).Some? ==> InitialTimeKey(keys, rawRows).value in keys
  {
    var candidates := TimeCandidates(keys);
    FirstWhereIn(candidates, k => HasRangeValue(Take(rawRows, ScanRows), k));
    FallbackTimeKeyInKeys(keys);
  }

  lemma FallbackTimeKeyInKeys(keys: seq<string>)
    ensures FallbackTimeKey(keys).Some? ==> FallbackTimeKey(keys).value in keys
  {
    FirstWhereIn(keys, k => Admits(k, RangeKeywords, []));
    FirstWhereIn(keys, k => Admits(k, ServiceTimeKeywords, ServiceTimeExcluded));
    FirstWhereIn(keys, k => Admits(k, PlainTimeKeywords, PlainTimeExcluded));
  }

  /** Both passes choose the time column among the sheet's own names. */
  lemma TimeKeyInKeys(keys: seq<string>, rawRows: seq<Row>)
    ensures TimeKey(keys, rawRows).Some? ==> TimeKey(keys, rawRows).value in keys
  {
    InitialTimeKeyInKeys(keys, rawRows);
    FirstWhereIn(keys, k => MostlyRanges(Take(NormalizeAll(rawRows), SampleRows), k));
  }

  /**
   * The sample is taken row by row: each row with a truthy cell in the column
   * gives one value, in row order, so its length is the number of such rows.
   */
  lemma {:induction false} NonEmptyValuesAppend(a: seq<Row>, b: seq<Row>, k: string)
    ensures NonEmptyValues(a + b, k) == NonEmptyValues(a, k) + NonEmptyValues(b, k)
    decreases |b|
  {
    if |b| == 0 {
      assert a + b == a;
    } else {
      var init := b[..|b| - 1];
      var last := b[|b| - 1];
      var extra := if Truthy(Lookup(last, k)) then [Lookup(last, k).value] else [];
      assert NonEmptyValues(a + b, k) == NonEmptyValues(a + init, k) + extra by {
        SnocSplit(a, b);
      }
      NonEmptyValuesAppend(a, init, k);
      ConcatAssoc(NonEmptyValues(a, k), NonEmptyValues(init, k), extra);
    }
  }

  /** One row gives its cell when the cell is truthy, and nothing otherwise. */
  lemma NonEmptyValuesOne(row: Row, k: string)
    ensures NonEmptyValues([row], k) == if Truthy(Lookup(row, k)) then [Lookup(row, k).value] else []
  {
    assert [row][..0] == [];
  }

  /** The count adds up over a concatenation: it counts every range value once. */
  lemma {:induction false} RangeCountAppend(a: seq<Value>, b: seq<Value>)
    ensures RangeCount(a + b) == RangeCount(a) + RangeCount(b)
    decreases |a|
  {
    if |a| == 0 {
      assert a + b == b;
    } else {
      assert (a + b)[0] == a[0];
      assert (a + b)[1..] == a[1..] + b;
      RangeCountAppend(a[1..], b);
    }
  }

  /** A single value counts one exactly when it is a time range. */
  lemma RangeCountOne(v: Value)
    ensures RangeCount([v]) == if IsTimeRange(Some(v)) then 1 else 0
  {
    assert [v][1..] == [];
  }

  /** `findKey` returns the column at `i` when it is the first one admitted. */
  lemma FindKeyAt(keys: seq<string>, wanted: seq<string>, unwanted: seq<string>, i: int)
    requires 0 <= i < |keys| && Admits(keys[i], wanted, unwanted)
    requires forall j :: 0 <= j < i ==> !Admits(keys[j], wanted, unwanted)
    ensures FindKey(keys, wanted, unwanted) == Some(keys[i])
  {
    FirstWhereAt(keys, k => Admits(k, wanted, unwanted), i);
  }

  // The complex sheet: a numeric approved-hours column named like a time column
  // sits before the real time range column.

  const ServiceItem: string := "服務項目"
  const ApprovedHours: string := "核定服務時間"
  const ServiceRange: string := "服務時間起迄"
  const CarerName: string := "照服員姓名"
  const ServiceDate: string := "服務日期"
  const RangeCell: string := "09:30~11:00"

  function ComplexRow(): Row {
    [Cell(ServiceItem, Str("居家服務")), Cell(ApprovedHours, Num(1.5)), Cell(ServiceRange, Str(RangeCell)),
     Cell(CarerName, Str("ComplexUser")), Cell(ServiceDate, Str("2023-12-05"))]
  }

  function ComplexKeys(): seq<string> {
    [ServiceItem, ApprovedHours, ServiceRange, CarerName, ServiceDate]
  }

  /** No name of the row starts or ends with white space. */
  predicate Unpadded(row: Row) {
    forall i :: 0 <= i < |row| ==> |row[i].key| > 0 && !IsJsSpace(row[i].key[0]) && !IsJsSpace(row[i].key[|row[i].key| - 1])
  }

  lemma UnpaddedTrimmed(row: Row)
    requires Unpadded(row)
    ensures forall i :: 0 <= i < |row| ==> Trim(row[i].key) == row[i].key
  {
    forall i | 0 <= i < |row| ensures Trim(row[i].key) == row[i].key {
      TrimUnchanged(row[i].key);
    }
  }

  lemma ComplexNames(row: Row)
    requires row == ComplexRow()
    ensures DistinctKeys(row) && Unpadded(row)
  {
    assert ServiceItem[2] != ServiceDate[2];
    assert ApprovedHours[0] != ServiceRange[0];
  }

  /** The sheet's names carry no surrounding space, so normalising changes nothing. */
  lemma ComplexRowNormal(row: Row)
    requires row == ComplexRow()
    ensures NormalizeKeys(row) == row
  {
    ComplexNames(row);
    UnpaddedTrimmed(row);
    NormalizeUnchanged(row);
  }

  lemma ComplexDetectionKeys(row: Row)
    requires row == ComplexRow()
    ensures DetectionKeys([row]) == ComplexKeys()
  {
    ComplexRowNormal(row);
    NormalRowKeys(row);
    ComplexKeysOf(row);
  }

  lemma NormalRowKeys(row: Row)
    requires NormalizeKeys(row) == row
    ensures DetectionKeys([row]) == Keys(row)
  {
  }

  lemma ComplexKeysOf(row: Row)
    requires row == ComplexRow()
    ensures Keys(row) == ComplexKeys()
  {
  }

  /** A text that lacks, for every keyword, some character of that keyword mentions none of them. */
  lemma NoneMentioned(k: string, keywords: seq<string>, marks: seq<char>)
    requires |marks| == |keywords|
    requires forall j :: 0 <= j < |keywords| ==> marks[j] in keywords[j] && marks[j] !in k
    ensures !MentionsAny(k, keywords)
  {
    forall j | 0 <= j < |keywords| ensures !Contains(k, keywords[j]) {
      MissingCharNotContained(k, keywords[j], marks[j]);
    }
  }

  /** A text mentions the keywords when one of them occurs in it at `at`. */
  lemma MentionedAt(k: string, keywords: seq<string>, i: int, at: int)
    requires 0 <= i < |keywords| && 0 <= at <= |k| && keywords[i] <= k[at..]
    ensures MentionsAny(k, keywords)
  {
    assert Contains(k, keywords[i]);
  }

  // Which characters each name of the complex sheet holds.

  lemma ComplexDateMarks(keys: seq<string>)
    requires keys == ComplexKeys()
    ensures |keys| == 5
    ensures forall j :: 0 <= j < 4 ==> '期' !in keys[j] && 'D' !in keys[j]
    ensures DateKeywords[0] <= keys[4]
  {
  }

  lemma ComplexCaregiverMarks(keys: seq<string>)
    requires keys == ComplexKeys()
    ensures |keys| == 5
    ensures forall j :: 0 <= j < 3 ==> '員' !in keys[j]
    ensures CaregiverKeywords[1] <= keys[3] && '編' !in keys[3] && 'I' !in keys[3]
  {
  }

  /** A name without `期` or `D` is not a date column. */
  lemma NotDateName(k: string)
    requires '期' !in k && 'D' !in k
    ensures !Admits(k, DateKeywords, [])
  {
    NoneMentioned(k, DateKeywords, ['期', '期', 'D']);
  }

  lemma ComplexDateNames(keys: seq<string>)
    requires keys == ComplexKeys()
    ensures forall j :: 0 <= j < 4 ==> !Admits(keys[j], DateKeywords, [])
  {
    ComplexDateMarks(keys);
    forall j | 0 <= j < 4 ensures !Admits(keys[j], DateKeywords, []) {
      NotDateName(keys[j]);
    }
  }

  lemma DateNameAdmitted(keys: seq<string>)
    requires keys == ComplexKeys()
    ensures Admits(keys[4], DateKeywords, [])
  {
    ComplexDateMarks(keys);
    MentionedAt(keys[4], DateKeywords, 0, 0);
  }

  lemma ComplexDateKey(keys: seq<string>)
    requires keys == ComplexKeys()
    ensures DateKey(keys) == Some(ServiceDate)
  {
    ComplexDateNames(keys);
    DateNameAdmitted(keys);
    FindKeyAt(keys, DateKeywords, [], 4);
  }

  /** A name without `員` names no caregiver role. */
  lemma NotCaregiverName(k: string)
    requires '員' !in k
    ensures !Admits(k, CaregiverKeywords, CaregiverExcluded)
  {
    NoneMentioned(k, CaregiverKeywords, ['員', '員', '員', '員']);
  }

  lemma CarerNameAdmitted(keys: seq<string>)
    requires keys == ComplexKeys()
    ensures Admits(keys[3], CaregiverKeywords, CaregiverExcluded)
  {
    ComplexCaregiverMarks(keys);
    MentionedAt(keys[3], CaregiverKeywords, 1, 0);
    NoneMentioned(keys[3], CaregiverExcluded, ['編', 'I']);
  }

  lemma ComplexCaregiverNames(keys: seq<string>)
    requires keys == ComplexKeys()
    ensures forall j :: 0 <= j < 3 ==> !Admits(keys[j], CaregiverKeywords, CaregiverExcluded)
  {
    ComplexCaregiverMarks(keys);
    forall j | 0 <= j < 3 ensures !Admits(keys[j], CaregiverKeywords, CaregiverExcluded) {
      NotCaregiverName(keys[j]);
    }
  }

  lemma ComplexStaffKey(keys: seq<string>)
    requires keys == ComplexKeys()
    ensures StaffKey(keys) == Some(CarerName)
  {
    ComplexCaregiverNames(keys);
    CarerNameAdmitted(keys);
    FindKeyAt(keys, CaregiverKeywords, CaregiverExcluded, 3);
  }

  /** A name with none of `時`, `T`, `起`, `區`, `排` is not a time candidate. */
  lemma NotCandidateName(k: string)
    requires '時' !in k && 'T' !in k && '起' !in k && '區' !in k && '排' !in k
    ensures !IsTimeCandidate(k)
  {
    NoneMentioned(k, TimeCandidateKeywords, ['時', 'T', '起', '區', '排']);
  }

  lemma ComplexCandidateMarks(keys: seq<string>)
    requires keys == ComplexKeys()
    ensures |keys| == 5
    ensures TimeCandidateKeywords[0] <= keys[1][4..] && TimeCandidateKeywords[0] <= keys[2][2..]
    ensures forall j :: 0 <= j < 5 && j != 1 && j != 2 ==>
              '時' !in keys[j] && 'T' !in keys[j] && '起' !in keys[j] && '區' !in keys[j] && '排' !in keys[j]
  {
  }

  lemma CandidateNames(keys: seq<string>)
    requires keys == ComplexKeys()
    ensures IsTimeCandidate(keys[1]) && IsTimeCandidate(keys[2])
  {
    ComplexCandidateMarks(keys);
    MentionedAt(keys[1], TimeCandidateKeywords, 0, 4);
    MentionedAt(keys[2], TimeCandidateKeywords, 0, 2);
  }

  lemma NonCandidateNames(keys: seq<string>)
    requires keys == ComplexKeys()
    ensures !IsTimeCandidate(keys[0]) && !IsTimeCandidate(keys[3]) && !IsTimeCandidate(keys[4])
  {
    ComplexCandidateMarks(keys);
    NotCandidateName(keys[0]);
    NotCandidateName(keys[3]);
    NotCandidateName(keys[4]);
  }

  /** Of five columns, the second and third are the candidates. */
  lemma MiddleCandidates(keys: seq<string>)
    requires |keys| == 5
    requires !IsTimeCandidate(keys[0]) && IsTimeCandidate(keys[1]) && IsTimeCandidate(keys[2])
    requires !IsTimeCandidate(keys[3]) && !IsTimeCandidate(keys[4])
    ensures TimeCandidates(keys) == [keys[1], keys[2]]
  {
    var k4 := keys[1..][1..][1..][1..];
    assert TimeCandidates(k4[1..]) == [];
    assert TimeCandidates(k4) == [];
    assert TimeCandidates(keys[1..][1..][1..]) == [];
    assert TimeCandidates(keys[1..][1..]) == [keys[2]];
    assert TimeCandidates(keys[1..]) == [keys[1], keys[2]];
  }

  lemma ComplexCandidates(keys: seq<string>)
    requires keys == ComplexKeys()
    ensures TimeCandidates(keys) == [ApprovedHours, ServiceRange]
  {
    NonCandidateNames(keys);
    CandidateNames(keys);
    MiddleCandidates(keys);
    assert keys[1] == ApprovedHours && keys[2] == ServiceRange;
  }

  lemma ComplexRangeCell()
    ensures IsTimeRange(Some(Str(RangeCell)))
  {
    var cell := RangeCell;
    assert MatchAt(cell) == Some((Clock(9, 30), 5));
    assert cell[5..] == "~11:00";
    assert MatchAt("~11:00") == None;
    assert "~11:00"[1..] == "11:00";
    assert MatchAt("11:00") == Some((Clock(11, 0), 5));
    assert "11:00"[5..] == "";
  }

  /** A one-row sample holds a range in column `k` exactly when that cell is a range. */
  lemma SingleRowRange(row: Row, k: string)
    ensures HasRangeValue([row], k) <==> Truthy(Lookup(row, k)) && IsTimeRange(Lookup(row, k))
    ensures |NonEmptyValues([row], k)| <= 1
  {
    assert [row][..0] == [];
  }

  /** The numeric approved-hours column holds no range; the range column does. */
  lemma ComplexScan(row: Row)
    requires row == ComplexRow()
    ensures !HasRangeValue([row], ApprovedHours)
    ensures HasRangeValue([row], ServiceRange)
  {
    ComplexNames(row);
    assert row[1].key == ApprovedHours && row[2].key == ServiceRange;
    assert Lookup(row, ApprovedHours) == Some(Num(1.5));
    assert Lookup(row, ServiceRange) == Some(Str(RangeCell));
    SingleRowRange(row, ApprovedHours);
    SingleRowRange(row, ServiceRange);
    ComplexRangeCell();
  }

  /** A time column read from one row never fails validation: that takes more than five values. */
  lemma SingleRowKeeps(row: Row, keys: seq<string>)
    ensures TimeKey(keys, [row]) == InitialTimeKey(keys, [row])
  {
    var sample := Take(NormalizeAll([row]), SampleRows);
    assert sample == [NormalizeKeys(row)];
    forall k' ensures !FailsValidation(sample, k') {
      SingleRowRange(NormalizeKeys(row), k');
    }
  }

  /** The range column is the first candidate holding a range. */
  lemma ComplexInitialTime(row: Row, keys: seq<string>)
    requires row == ComplexRow() && keys == ComplexKeys()
    ensures InitialTimeKey(keys, [row]) == Some(ServiceRange)
  {
    ComplexCandidates(keys);
    ComplexScan(row);
    assert Take([row], ScanRows) == [row];
    var cands := [ApprovedHours, ServiceRange];
    FirstWhereAt(cands, k => HasRangeValue([row], k), 1);
  }

  /**
   * On the complex sheet detection picks the date column, the caregiver's name
   * and the range column `服務時間起迄`, not the numeric `核定服務時間` before it.
   */
  lemma ComplexSheetDetection()
    ensures DetectColumns([ComplexRow()]) == Success(Columns(ServiceDate, ServiceRange, CarerName))
  {
    var row := ComplexRow();
    var keys := ComplexKeys();
    ComplexDetectionKeys(row);
    ComplexDateKey(keys);
    ComplexStaffKey(keys);
    ComplexInitialTime(row, keys);
    SingleRowKeeps(row, keys);
  }
}

=== FILE: filter.dfy ===
/** The time-range filter: the staff free for the whole of a requested slot. */
module FreeFilter {
  import opened Wrappers
  import opened Text
  import opened Intervals
  import opened Rows
  import opened Availability
  import opened AvailabilityLemmas

  /** Position of the first `c` in `s`. */
  function FindChar(s: string, c: char): (r: Option<nat>)
    ensures r.None? <==> c !in s
    ensures r.Some? ==> r.value < |s| && s[r.value] == c && c !in s[..r.value]
  {
    if |s| == 0 then None
    else if s[0] == c then Some(0)
    else match FindChar(s[1..], c)
      case None => None
      case Some(i) =>
        assert s[..i + 1] == [s[0]] + s[1..][..i];
        Some(i + 1)
  }

  /** `Number(part)` for the parts this model reads: a digit string (empty reads as 0); anything else is NaN. */
  function NumberOf(part: string): (r: Option<nat>)
    ensures r.Some? <==> AllDigits(part)
  {
    if AllDigits(part) then Some(DecimalValue(part)) else None
  }

  /**
   * `[h, m] = field.split(':').map(Number)` followed by `setHours(h, m, 0, 0)`:
   * minutes from midnight, or `None` when the resulting date is invalid (no
   * colon, so `m` is undefined, or a part that is not a number). Text after a
   * second colon is ignored.
   */
  function ClockField(field: string): Option<int> {
    match FindChar(field, ':')
    case None => None
    case Some(i) =>
      var h := NumberOf(field[..i]);
      var m := NumberOf(UpToColon(field[i + 1..]));
      if h.Some? && m.Some? then Some(h.value * 60 + m.value) else None
  }

  /** The text before the first colon, or all of it. */
  function UpToColon(s: string): string {
    match FindChar(s, ':')
    case None => s
    case Some(j) => s[..j]
  }

  lemma FindCharAt(s: string, c: char, i: nat)
    requires i < |s| && s[i] == c && c !in s[..i]
    ensures FindChar(s, c) == Some(i)
  {
    if i > 0 {
      assert s[0] in s[..i];
      assert s[1..][..i - 1] == s[1..i];
      assert forall x :: x in s[1..i] ==> x in s[..i];
      FindCharAt(s[1..], c, i - 1);
    }
  }

  lemma DigitsHaveNoColon(s: string)
    requires AllDigits(s)
    ensures ':' !in s
  {
    forall k | 0 <= k < |s| ensures s[k] != ':' {
      assert IsDigit(s[k]);
    }
  }

  lemma SplitAtColon(h: string, m: string)
    requires AllDigits(h) && AllDigits(m)
    ensures var s := h + ":" + m;
            && FindChar(s, ':') == Some(|h|) && s[..|h|] == h && s[|h| + 1..] == m
            && UpToColon(m) == m
  {
    var s := h + ":" + m;
    DigitsHaveNoColon(h);
    DigitsHaveNoColon(m);
    assert s[..|h|] == h && s[|h|] == ':' && s[|h| + 1..] == m;
    FindCharAt(s, ':', |h|);
  }

  /** Reading `h:m` for digit strings `h` and `m` gives `h` hours and `m` minutes. */
  lemma ClockFieldDigits(field: string, h: string, m: string)
    requires AllDigits(h) && AllDigits(m) && field == h + ":" + m
    ensures ClockField(field) == Some(DecimalValue(h) * 60 + DecimalValue(m))
  {
    SplitAtColon(h, m);
    ClockFieldRead(field, h, m);
  }

  /** A field that splits at its first colon into two digit strings. */
  lemma ClockFieldRead(s: string, h: string, m: string)
    requires AllDigits(h) && AllDigits(m)
    requires FindChar(s, ':') == Some(|h|) && s[..|h|] == h && s[|h| + 1..] == m && UpToColon(m) == m
    ensures ClockField(s) == Some(DecimalValue(h) * 60 + DecimalValue(m))
  {
    ClockFieldAt(s, |h|);
    assert NumberOf(s[..|h|]) == Some(DecimalValue(h));
    assert NumberOf(UpToColon(s[|h| + 1..])) == Some(DecimalValue(m));
  }

  /** The field read around its first colon. */
  lemma ClockFieldAt(field: string, i: nat)
    requires FindChar(field, ':') == Some(i)
    ensures ClockField(field) == var h := NumberOf(field[..i]);
                                 var m := NumberOf(UpToColon(field[i + 1..]));
                                 if h.Some? && m.Some? then Some(h.value * 60 + m.value) else None
  {
  }

  /** A clock written out as `<hours>:<minutes>` reads back as the same number of minutes. */
  lemma ClockFieldRoundTrip(field: string, hour: nat, minute: nat)
    requires field == NatToString(hour) + ":" + NatToString(minute)
    ensures ClockField(field) == Some(hour * 60 + minute)
  {
    var h, m := NatToString(hour), NatToString(minute);
    assert DecimalValue(h) == hour by {
      DecimalOfNatToString(hour);
    }
    assert DecimalValue(m) == minute by {
      DecimalOfNatToString(minute);
    }
    ClockFieldDigits(field, h, m);
  }

  /** A field without a colon leaves the minutes undefined, so the date is invalid. */
  lemma ClockFieldNeedsColon(field: string)
    requires ':' !in field
    ensures ClockField(field) == None
  {
  }

  /**
   * `areIntervalsOverlapping(free, {start: rs, end: re})`: both intervals are
   * first put in order, and touching endpoints do not count as overlap.
   */
  predicate Overlapping(f: Interval, rs: int, re: int) {
    Min(f.start, f.end) < Max(rs, re) && Min(rs, re) < Max(f.start, f.end)
  }

  /** The test applied to each free interval. */
  predicate Covers(f: Interval, rs: int, re: int) {
    Overlapping(f, rs, re) && f.start <= rs && f.end >= re
  }

  /** `p.free.some(...)`. */
  predicate Qualifies(free: seq<Interval>, rs: int, re: int) {
    exists i :: 0 <= i < |free| && Covers(free[i], rs, re)
  }

  /** The entries that qualify, in their original order. */
  function KeepQualifying(processed: seq<DailyAvailability>, rs: int, re: int): (r: seq<DailyAvailability>)
    ensures |r| <= |processed|
    ensures forall p :: p in r <==> p in processed && Qualifies(p.free, rs, re)
    ensures (forall i :: 0 <= i < |processed| ==> Qualifies(processed[i].free, rs, re)) ==> r == processed
  {
    if |processed| == 0 then []
    else
      var init := processed[..|processed| - 1];
      var last := processed[|processed| - 1];
      assert processed == init + [last];
      var prev := KeepQualifying(init, rs, re);
      if Qualifies(last.free, rs, re) then prev + [last] else prev
  }

  /** The filter goes entry by entry: the qualifying entries keep their order and multiplicity. */
  lemma {:induction false} KeepQualifyingAppend(a: seq<DailyAvailability>, b: seq<DailyAvailability>, rs: int, re: int)
    ensures KeepQualifying(a + b, rs, re) == KeepQualifying(a, rs, re) + KeepQualifying(b, rs, re)
    decreases |b|
  {
    if |b| == 0 {
      assert a + b == a;
    } else {
      var init := b[..|b| - 1];
      var last := b[|b| - 1];
      var extra := if Qualifies(last.free, rs, re) then [last] else [];
      assert KeepQualifying(a + b, rs, re) == KeepQualifying(a + init, rs, re) + extra by {
        SnocSplit(a, b);
      }
      KeepQualifyingAppend(a, init, rs, re);
      ConcatAssoc(KeepQualifying(a, rs, re), KeepQualifying(init, rs, re), extra);
    }
  }

  /** A single entry is kept exactly when it qualifies. */
  lemma KeepQualifyingOne(p: DailyAvailability, rs: int, re: int)
    ensures KeepQualifying([p], rs, re) == if Qualifies(p.free, rs, re) then [p] else []
  {
    assert [p][..0] == [];
  }

  /**
   * `filteredStaffList`: `None` (null) while either time field is empty; no one
   * when a field or the selected day does not make a valid date; otherwise the
   * staff with a free interval around the whole requested slot.
   */
  function FilteredStaffList(processed: seq<DailyAvailability>, startField: string, endField: string,
                             selectedDate: string, env: DateEnv): (r: Option<seq<DailyAvailability>>)
    ensures r.None? <==> startField == "" || endField == ""
    ensures r.Some? ==> forall p :: p in r.value ==> p in processed
    ensures r.Some? && (env.parseString(selectedDate).None? || ClockField(startField).None? || ClockField(endField).None?)
            ==> r.value == []
    ensures r.Some? && env.parseString(selectedDate).Some? && ClockField(startField).Some? && ClockField(endField).Some?
            ==> forall p :: p in r.value <==> p in processed && Qualifies(p.free, ClockField(startField).value, ClockField(endField).value)
  {
    if startField == "" || endField == "" then None
    else if env.parseString(selectedDate).None? then Some([])
    else match (ClockField(startField), ClockField(endField))
      case (Some(rs), Some(re)) => Some(KeepQualifying(processed, rs, re))
      case _ => Some([])
  }

  /**
   * For a proper slot (start before end) and free intervals of positive length,
   * the test is exactly containment: some free interval starts no later and ends
   * no earlier than the slot.
   */
  lemma QualifiesIsContainment(free: seq<Interval>, rs: int, re: int)
    requires rs < re
    requires forall i :: 0 <= i < |free| ==> free[i].start < free[i].end
    ensures Qualifies(free, rs, re) <==> exists i :: 0 <= i < |free| && free[i].start <= rs && re <= free[i].end
  {
    if exists i :: 0 <= i < |free| && free[i].start <= rs && re <= free[i].end {
      var i :| 0 <= i < |free| && free[i].start <= rs && re <= free[i].end;
      assert Covers(free[i], rs, re);
    }
  }

  /** An empty slot qualifies only strictly inside a free interval: touching an end is no overlap. */
  lemma EmptySlotNeedsInterior(free: seq<Interval>, t: int)
    requires forall i :: 0 <= i < |free| ==> free[i].start < free[i].end
    ensures Qualifies(free, t, t) <==> exists i :: 0 <= i < |free| && free[i].start < t < free[i].end
  {
    if exists i :: 0 <= i < |free| && free[i].start < t < free[i].end {
      var i :| 0 <= i < |free| && free[i].start < t < free[i].end;
      assert Covers(free[i], t, t);
    }
  }

  /** A free interval around the slot means no minute of the slot is blocked. */
  lemma ContainedIsUnblocked(staff: Staff, records: seq<Row>, buffer: int, rs: int, re: int, t: int)
    requires DayStart <= rs <= t < re <= DayEnd
    requires exists i :: 0 <= i < |ForStaff(staff, records, true, buffer).free|
                         && ForStaff(staff, records, true, buffer).free[i].start <= rs
                         && re <= ForStaff(staff, records, true, buffer).free[i].end
    ensures !InBlocks(ForStaff(staff, records, true, buffer).blocked, t)
  {
    var d := ForStaff(staff, records, true, buffer);
    var i :| 0 <= i < |d.free| && d.free[i].start <= rs && re <= d.free[i].end;
    assert d.free[i] in d.free;
    FreeTilesWorkingDay(staff, records, buffer, t);
  }

  /**
   * A slot with no blocked minute lies inside one free interval: a free interval
   * that stops inside the working day stops where a block starts, and with busy
   * intervals of positive length that minute is blocked.
   */
  lemma UnblockedIsContained(staff: Staff, records: seq<Row>, buffer: int, rs: int, re: int)
    requires DayStart <= rs < re <= DayEnd
    requires Positive(BusyIntervals(records, staff.name, true)) && buffer >= 0
    requires forall t :: rs <= t < re ==> !InBlocks(ForStaff(staff, records, true, buffer).blocked, t)
    ensures var d := ForStaff(staff, records, true, buffer);
            exists i :: 0 <= i < |d.free| && d.free[i].start <= rs && re <= d.free[i].end
  {
    var d := ForStaff(staff, records, true, buffer);
    FreeTilesWorkingDay(staff, records, buffer, rs);
    var iv :| iv in d.free && iv.start <= rs < iv.end;
    var i :| 0 <= i < |d.free| && d.free[i] == iv;
    if iv.end < re {
      BlockedWide(BusyIntervals(records, staff.name, true), buffer);
      GapsEndAtBlocks(d.blocked, DayStart, DayEnd);
      EndIsBlocked(d.free, d.blocked, DayEnd, i);
    }
  }

  /**
   * On a day's availability, a staff member passes the filter for a proper slot
   * inside the working day exactly when no minute of the slot is blocked.
   */
  lemma FilterMeansUnblocked(staff: Staff, records: seq<Row>, buffer: int, rs: int, re: int)
    requires DayStart <= rs < re <= DayEnd
    requires Positive(BusyIntervals(records, staff.name, true)) && buffer >= 0
    ensures var d := ForStaff(staff, records, true, buffer);
            Qualifies(d.free, rs, re) <==> forall t :: rs <= t < re ==> !InBlocks(d.blocked, t)
  {
    var d := ForStaff(staff, records, true, buffer);
    QualifiesIsContainment(d.free, rs, re);
    if Qualifies(d.free, rs, re) {
      forall t | rs <= t < re ensures !InBlocks(d.blocked, t) {
        ContainedIsUnblocked(staff, records, buffer, rs, re, t);
      }
    }
    if forall t :: rs <= t < re ==> !InBlocks(d.blocked, t) {
      UnblockedIsContained(staff, records, buffer, rs, re);
    }
  }

  /**
   * The filtered list goes entry by entry: filtering a concatenation of
   * availability lists filters each part and concatenates, so the kept staff
   * stay in their original order.
   */
  lemma FilteredStaffListAppend(a: seq<DailyAvailability>, b: seq<DailyAvailability>, startField: string, endField: string,
                                selectedDate: string, env: DateEnv)
    ensures var r := FilteredStaffList(a + b, startField, endField, selectedDate, env);
            var ra := FilteredStaffList(a, startField, endField, selectedDate, env);
            var rb := FilteredStaffList(b, startField, endField, selectedDate, env);
            && (r.None? <==> ra.None?) && (ra.None? <==> rb.None?)
            && (r.Some? ==> r.value == ra.value + rb.value)
  {
    if startField != "" && endField != "" && env.parseString(selectedDate).Some?
       && ClockField(startField).Some? && ClockField(endField).Some? {
      KeepQualifyingAppend(a, b, ClockField(startField).value, ClockField(endField).value);
    }
  }
}

=== FILE: findings.dfy ===
/**
 * A time cell whose end comes before its start (`10:00~09:00`) yields a
 * reversed busy interval, and the free-interval sweep then reports two free
 * intervals that overlap. The corrected calculation leaves such cells out.
 */
module Findings {
  import opened Wrappers
  import opened Rows
  import opened TimeScan
  import opened Intervals
  import opened Availability
  import opened AvailabilityLemmas

  function ReversedRecord(): Row {
    [Cell(TimeField, Str("10:00~09:00")), Cell(StaffField, Str("李大華"))]
  }

  lemma ReversedLookups()
    ensures Lookup(ReversedRecord(), TimeField) == Some(Str("10:00~09:00"))
    ensures Lookup(ReversedRecord(), StaffField) == Some(Str("李大華"))
  {
    var rec := ReversedRecord();
    assert TimeField[2] != StaffField[2];
    assert IndexOf(rec, TimeField) == Some(0);
    assert IndexOf(rec, StaffField) == Some(1);
  }

  lemma ReversedScan()
    ensures Scan("10:00~09:00") == [Clock(10, 0), Clock(9, 0)]
  {
    var cell := "10:00~09:00";
    assert MatchAt(cell) == Some((Clock(10, 0), 5));
    assert cell[5..] == "~09:00";
    assert MatchAt("~09:00") == None;
    assert "~09:00"[1..] == "09:00";
    assert MatchAt("09:00") == Some((Clock(9, 0), 5));
    assert "09:00"[5..] == "";
  }

  lemma ReversedBusy()
    ensures BusyIntervals([ReversedRecord()], Str("李大華"), true) == [Interval(600, 540)]
  {
    var rec := ReversedRecord();
    ReversedLookups();
    ReversedScan();
    BusyOfCell(rec, "10:00~09:00", Clock(10, 0), Clock(9, 0));
    BusyOfOne(rec, Str("李大華"), Interval(600, 540));
  }

  /**
   * As written: with no buffer, the reversed cell leaves 07:00-10:00 and
   * 09:00-22:00 free, two free intervals that share the hour 09:00-10:00.
   */
  lemma ReversedCellOverlaps()
    ensures var d := ForStaff(Staff(Str("A002"), Str("李大華")), [ReversedRecord()], true, 0);
            && d.free == [Interval(420, 600), Interval(540, 1320)]
            && !Chain(d.free)
  {
    ReversedBusy();
    ReversedBlocked();
    ReversedFree(Staff(Str("A002"), Str("李大華")), [ReversedRecord()]);
  }

  lemma ReversedFree(staff: Staff, records: seq<Row>)
    requires BusyIntervals(records, staff.name, true) == [Interval(600, 540)]
    requires BlockedOf([Interval(600, 540)], 0) == [Block(600, 540, 600, 540)]
    requires Gaps([Block(600, 540, 600, 540)], DayStart, DayEnd) == [Interval(420, 600), Interval(540, 1320)]
    ensures var d := ForStaff(staff, records, true, 0);
            d.free == [Interval(420, 600), Interval(540, 1320)] && !Chain(d.free)
  {
    var d := ForStaff(staff, records, true, 0);
    assert d.free[0].end > d.free[1].start;
  }

  lemma ReversedBlocked()
    ensures BlockedOf([Interval(600, 540)], 0) == [Block(600, 540, 600, 540)]
    ensures Gaps([Block(600, 540, 600, 540)], DayStart, DayEnd) == [Interval(420, 600), Interval(540, 1320)]
  {
    var b := Block(600, 540, 600, 540);
    assert BufferAll([Interval(600, 540)], 0) == [b];
    assert [b][..0] == [];
    assert SortByStart([b]) == [b];
  }

  /** The busy intervals that run forwards, in order. */
  function DropReversed(busy: seq<Interval>): (r: seq<Interval>)
    ensures Ordered(r) && |r| <= |busy|
    ensures forall iv :: iv in r <==> iv in busy && iv.start <= iv.end
    ensures Ordered(busy) ==> r == busy
  {
    if |busy| == 0 then []
    else
      var init := busy[..|busy| - 1];
      var last := busy[|busy| - 1];
      assert busy == init + [last];
      assert forall iv :: iv in busy <==> iv in init || iv == last;
      assert Ordered(busy) ==> Ordered(init) by {
        assert forall i :: 0 <= i < |init| ==> init[i] == busy[i];
      }
      var prev := DropReversed(init);
      if last.start <= last.end then
        assert forall iv :: iv in prev + [last] <==> iv in prev || iv == last;
        prev + [last]
      else prev
  }

  /** Reversed intervals are dropped one by one: the forward ones keep their order and multiplicity. */
  lemma {:induction false} DropReversedAppend(a: seq<Interval>, b: seq<Interval>)
    ensures DropReversed(a + b) == DropReversed(a) + DropReversed(b)
    decreases |b|
  {
    if |b| == 0 {
      assert a + b == a;
    } else {
      var init := b[..|b| - 1];
      var last := b[|b| - 1];
      var extra := if last.start <= last.end then [last] else [];
      assert DropReversed(a + b) == DropReversed(a + init) + extra by {
        SnocSplit(a, b);
      }
      DropReversedAppend(a, init);
      ConcatAssoc(DropReversed(a), DropReversed(init), extra);
    }
  }

  /** A single interval is kept exactly when it runs forwards. */
  lemma DropReversedOne(iv: Interval)
    ensures DropReversed([iv]) == if iv.start <= iv.end then [iv] else []
  {
    assert [iv][..0] == [];
  }

  /** The availability of one staff member with reversed time cells left out. */
  function ForStaffCorrected(staff: Staff, records: seq<Row>, dayValid: bool, buffer: int): (d: DailyAvailability)
    ensures d.staff == staff
    ensures Ordered(d.busyRaw)
    ensures buffer >= 0 ==> Chain(d.free)
  {
    var busy := DropReversed(BusyIntervals(records, staff.name, dayValid));
    var blocked := BlockedOf(busy, buffer);
    assert buffer >= 0 ==> WellFormed(blocked) by {
      if buffer >= 0 {
        BlockedWellFormed(busy, buffer);
      }
    }
    var free := if dayValid then Gaps(blocked, DayStart, DayEnd) else [];
    DailyAvailability(staff, busy, blocked, free, |busy| == 0)
  }

  /** Where every time cell runs forwards, the corrected calculation is the original one. */
  lemma CorrectedAgrees(staff: Staff, records: seq<Row>, dayValid: bool, buffer: int)
    requires Ordered(BusyIntervals(records, staff.name, dayValid))
    ensures ForStaffCorrected(staff, records, dayValid, buffer) == ForStaff(staff, records, dayValid, buffer)
  {
  }

  /** The corrected calculation gives ordered free intervals that never overlap, whatever the cells say. */
  lemma CorrectedNeverOverlaps(staff: Staff, records: seq<Row>, dayValid: bool, buffer: int)
    requires buffer >= 0
    ensures var d := ForStaffCorrected(staff, records, dayValid, buffer);
            forall i, j :: 0 <= i < j < |d.free| ==> d.free[i].end <= d.free[j].start
  {
  }
  /**
   * The daily calculation built on the corrected per-staff step: the same
   * entries, except that a staff member with a reversed time cell gets free
   * intervals that never overlap.
   */
  function CalculateCorrected(dateStr: string, schedule: Option<seq<Row>>, staffData: seq<Staff>,
                              buffer: int, env: DateEnv): (r: seq<DailyAvailability>)
    ensures |r| == |CalculateDailyAvailability(dateStr, schedule, staffData, buffer, env)|
    ensures forall i :: 0 <= i < |r| ==> r[i].staff == staffData[i]
    ensures buffer >= 0 ==> forall i :: 0 <= i < |r| ==> Chain(r[i].free)
    ensures forall i :: 0 <= i < |r| && Ordered(CalculateDailyAvailability(dateStr, schedule, staffData, buffer, env)[i].busyRaw)
                        ==> r[i] == CalculateDailyAvailability(dateStr, schedule, staffData, buffer, env)[i]
  {
    if dateStr == "" || schedule.None? then []
    else match DailyRecords(schedule.value, dateStr, env)
      case None => []
      case Some(records) =>
        var dayValid := env.parseString(dateStr).Some?;
        var r := seq(|staffData|, i requires 0 <= i < |staffData| => ForStaffCorrected(staffData[i], records, dayValid, buffer));
        assert forall i :: 0 <= i < |r| && Ordered(ForStaff(staffData[i], records, dayValid, buffer).busyRaw)
                           ==> r[i] == ForStaff(staffData[i], records, dayValid, buffer) by {
          forall i | 0 <= i < |r| && Ordered(ForStaff(staffData[i], records, dayValid, buffer).busyRaw) {
            CorrectedAgrees(staffData[i], records, dayValid, buffer);
          }
        }
        r
  }
}

=== FILE: intervals.dfy ===
/**
 * Interval arithmetic on minutes: the stable sort by start, the merge of
 * buffered busy blocks and the walk that derives the free gaps of a window.
 * All intervals are half-open, `[start, end)`.
 */
module Intervals {
  import Wrappers

  /** A time interval in minutes since local midnight of the selected day. */
  datatype Interval = Interval(start: int, end: int)

  /** A buffered busy interval that remembers the unbuffered one it was widened from. */
  datatype Block = Block(start: int, end: int, originalStart: int, originalEnd: int)

  function Max(a: int, b: int): int { if a >= b then a else b }

  function Min(a: int, b: int): int { if a <= b then a else b }

  /** Minute `t` lies in some block of `bs`. */
  predicate InBlocks(bs: seq<Block>, t: int) {
    exists b :: b in bs && b.start <= t < b.end
  }

  /** Minute `t` lies in some interval of `ivs`. */
  predicate InIntervals(ivs: seq<Interval>, t: int) {
    exists iv :: iv in ivs && iv.start <= t < iv.end
  }

  predicate SortedByStart(bs: seq<Block>) {
    forall i, j :: 0 <= i < j < |bs| ==> bs[i].start <= bs[j].start
  }

  /** Consecutive blocks are strictly apart: touching blocks would have been merged. */
  predicate Separated(bs: seq<Block>) {
    forall i :: 0 <= i < |bs| - 1 ==> bs[i].end < bs[i + 1].start
  }

  /** No block ends before it starts. */
  predicate WellFormed(bs: seq<Block>) {
    forall i :: 0 <= i < |bs| ==> bs[i].start <= bs[i].end
  }

  /** Every block covers at least one minute. */
  predicate Wide(bs: seq<Block>) {
    forall i :: 0 <= i < |bs| ==> bs[i].start < bs[i].end
  }

  /** The intervals follow one another without overlap (each ends before the next starts). */
  predicate Chain(ivs: seq<Interval>) {
    forall i, j :: 0 <= i < j < |ivs| ==> ivs[i].end <= ivs[j].start
  }

  // ---------------------------------------------------------------------------
  // Sorting: `rawBlocked.sort((a, b) => a.start - b.start)`, a stable sort.
  // ---------------------------------------------------------------------------

  /** Inserts `x` after every block whose start is not greater than its own. */
  function Insert(x: Block, s: seq<Block>): (r: seq<Block>)
    requires SortedByStart(s)
    ensures SortedByStart(r)
    ensures multiset(r) == multiset(s) + multiset{x}
    ensures forall i :: 0 <= i < |r| ==> r[i] == x || r[i] in s
  {
    if |s| == 0 then [x]
    else if x.start < s[0].start then [x] + s
    else
      var rest := Insert(x, s[1..]);
      forall i | 0 <= i < |rest| ensures s[0].start <= rest[i].start {
        if rest[i] != x {
          var j :| 0 <= j < |s[1..]| && s[1..][j] == rest[i];
          assert s[j + 1] == rest[i];
        }
      }
      ConsSorted(s[0], rest);
      assert s == [s[0]] + s[1..];
      [s[0]] + rest
  }

  lemma ConsSorted(a: Block, rest: seq<Block>)
    requires SortedByStart(rest) && forall i :: 0 <= i < |rest| ==> a.start <= rest[i].start
    ensures SortedByStart([a] + rest)
  {
    var r := [a] + rest;
    forall i, j | 0 <= i < j < |r| ensures r[i].start <= r[j].start {
      assert r[j] == rest[j - 1];
      if i > 0 {
        assert r[i] == rest[i - 1];
      }
    }
  }

  /** Sorts by start; blocks with equal starts keep their input order (`SortStable`). */
  function SortByStart(bs: seq<Block>): (r: seq<Block>)
    ensures SortedByStart(r)
    ensures multiset(r) == multiset(bs)
  {
    if |bs| == 0 then []
    else
      var init := bs[..|bs| - 1];
      assert bs == init + [bs[|bs| - 1]];
      Insert(bs[|bs| - 1], SortByStart(init))
  }

  /** Sorting neither adds nor drops busy minutes. */
  lemma SortKeepsCoverage(bs: seq<Block>, t: int)
    ensures InBlocks(SortByStart(bs), t) <==> InBlocks(bs, t)
  {
    var r := SortByStart(bs);
    assert forall b :: b in r <==> b in bs by {
      forall b ensures b in r <==> b in bs {
        assert b in r <==> b in multiset(r);
        assert b in bs <==> b in multiset(bs);
      }
    }
  }

  /** Sorting well-formed blocks yields well-formed blocks. */
  lemma SortKeepsWellFormed(bs: seq<Block>)
    requires WellFormed(bs)
    ensures WellFormed(SortByStart(bs))
  {
    var r := SortByStart(bs);
    forall i | 0 <= i < |r| ensures r[i].start <= r[i].end {
      assert r[i] in multiset(r);
      assert r[i] in bs;
    }
  }

  lemma SortKeepsWide(bs: seq<Block>)
    requires Wide(bs)
    ensures Wide(SortByStart(bs))
  {
    var r := SortByStart(bs);
    forall i | 0 <= i < |r| ensures r[i].start < r[i].end {
      assert r[i] in multiset(r);
      assert r[i] in bs;
    }
  }

  /** An already sorted list is left as it is (the sort is stable). */
  lemma {:induction false} SortSorted(bs: seq<Block>)
    requires SortedByStart(bs)
    ensures SortByStart(bs) == bs
  {
    if |bs| > 0 {
      var init := bs[..|bs| - 1];
      SortSorted(init);
      InsertAtEnd(bs[|bs| - 1], init);
      assert init + [bs[|bs| - 1]] == bs;
    }
  }

  lemma {:induction false} InsertAtEnd(x: Block, s: seq<Block>)
    requires SortedByStart(s)
    requires forall i :: 0 <= i < |s| ==> s[i].start <= x.start
    ensures Insert(x, s) == s + [x]
  {
    if |s| > 0 {
      InsertAtEnd(x, s[1..]);
      assert s == [s[0]] + s[1..];
    }
  }

  /** The blocks of `bs` that start at minute `v`, in their order in `bs`. */
  function StartingAt(bs: seq<Block>, v: int): seq<Block> {
    if |bs| == 0 then []
    else (if bs[0].start == v then [bs[0]] else []) + StartingAt(bs[1..], v)
  }

  lemma {:induction false} StartingAtAppend(a: seq<Block>, b: seq<Block>, v: int)
    ensures StartingAt(a + b, v) == StartingAt(a, v) + StartingAt(b, v)
  {
    if |a| > 0 {
      StartingAtAppend(a[1..], b, v);
      assert (a + b)[1..] == a[1..] + b;
    } else {
      assert a + b == b;
    }
  }

  lemma {:induction false} StartingAtNone(bs: seq<Block>, v: int)
    requires forall i :: 0 <= i < |bs| ==> bs[i].start != v
    ensures StartingAt(bs, v) == []
  {
    if |bs| > 0 {
      StartingAtNone(bs[1..], v);
    }
  }

  /** Inserting `x` puts it after every block of the same start already present. */
  lemma {:induction false} InsertStable(x: Block, s: seq<Block>, v: int)
    requires SortedByStart(s)
    ensures StartingAt(Insert(x, s), v) == StartingAt(s, v) + (if x.start == v then [x] else [])
  {
    if |s| == 0 {
      assert Insert(x, s) == [x];
      assert [x][1..] == [];
    } else if x.start < s[0].start {
      InsertStableFront(x, s, v);
    } else {
      InsertStable(x, s[1..], v);
      InsertStableLater(x, s, v);
    }
  }

  lemma InsertStableFront(x: Block, s: seq<Block>, v: int)
    requires SortedByStart(s) && |s| > 0 && x.start < s[0].start
    ensures StartingAt(Insert(x, s), v) == StartingAt(s, v) + (if x.start == v then [x] else [])
  {
    assert Insert(x, s) == [x] + s;
    assert ([x] + s)[1..] == s;
    if x.start == v {
      StartingAtNone(s, v);
    }
  }

  lemma InsertStableLater(x: Block, s: seq<Block>, v: int)
    requires SortedByStart(s) && |s| > 0 && s[0].start <= x.start
    requires StartingAt(Insert(x, s[1..]), v) == StartingAt(s[1..], v) + (if x.start == v then [x] else [])
    ensures StartingAt(Insert(x, s), v) == StartingAt(s, v) + (if x.start == v then [x] else [])
  {
    var mark := if x.start == v then [x] else [];
    var head := if s[0].start == v then [s[0]] else [];
    var rest := Insert(x, s[1..]);
    assert Insert(x, s) == [s[0]] + rest;
    assert ([s[0]] + rest)[1..] == rest;
    Wrappers.ConcatAssoc(head, StartingAt(s[1..], v), mark);
  }

  /**
   * The sort is stable: for every start minute, the blocks starting there come
   * out in the order they went in.
   */
  lemma {:induction false} SortStable(bs: seq<Block>, v: int)
    ensures StartingAt(SortByStart(bs), v) == StartingAt(bs, v)
  {
    if |bs| > 0 {
      var init := bs[..|bs| - 1];
      var last := bs[|bs| - 1];
      var sorted := SortByStart(init);
      assert SortByStart(bs) == Insert(last, sorted);
      SortStable(init, v);
      InsertStable(last, sorted, v);
      assert bs == init + [last];
      StartingAtAppend(init, [last], v);
      assert [last][1..] == [];
      assert StartingAt([last], v) == if last.start == v then [last] else [];
    }
  }

  // ---------------------------------------------------------------------------
  // Merging: a sweep that extends the current block while the next one starts
  // no later than the current one ends (`current.end >= next.start`).
  // ---------------------------------------------------------------------------

  function MergeFrom(cur: Block, rest: seq<Block>): (r: seq<Block>)
    ensures 0 < |r| <= |rest| + 1
    ensures r[0].start == cur.start && r[0].originalStart == cur.originalStart
            && r[0].originalEnd == cur.originalEnd && r[0].end >= cur.end
    ensures Separated(r)
    decreases |rest|
  {
    if |rest| == 0 then [cur]
    else if cur.end >= rest[0].start then
      MergeFrom(cur.(end := Max(cur.end, rest[0].end)), rest[1..])
    else
      [cur] + MergeFrom(rest[0], rest[1..])
  }

  /** The merged blocks, in order; empty input gives no blocks. */
  function Merge(bs: seq<Block>): (r: seq<Block>)
    ensures Separated(r)
    ensures |r| <= |bs| && (|r| == 0 <==> |bs| == 0)
  {
    if |bs| == 0 then [] else MergeFrom(bs[0], bs[1..])
  }

  /** On sorted input every merged block starts no earlier than the first and the output stays sorted. */
  lemma {:induction false} MergeFromSorted(cur: Block, rest: seq<Block>)
    requires SortedByStart(rest)
    requires forall i :: 0 <= i < |rest| ==> cur.start <= rest[i].start
    ensures forall i :: 0 <= i < |MergeFrom(cur, rest)| ==> cur.start <= MergeFrom(cur, rest)[i].start
    ensures SortedByStart(MergeFrom(cur, rest))
    decreases |rest|
  {
    if |rest| > 0 {
      if cur.end >= rest[0].start {
        MergeFromSorted(cur.(end := Max(cur.end, rest[0].end)), rest[1..]);
      } else {
        MergeFromSorted(rest[0], rest[1..]);
      }
    }
  }

  lemma MergeSorted(bs: seq<Block>)
    requires SortedByStart(bs)
    ensures SortedByStart(Merge(bs))
  {
    if |bs| > 0 {
      MergeFromSorted(bs[0], bs[1..]);
    }
  }

  /**
   * On sorted input the merged blocks cover exactly the minutes the input
   * blocks cover (also when some input block is empty or reversed).
   */
  lemma {:induction false} MergeFromCoverage(cur: Block, rest: seq<Block>, t: int)
    requires SortedByStart(rest)
    requires forall i :: 0 <= i < |rest| ==> cur.start <= rest[i].start
    ensures InBlocks(MergeFrom(cur, rest), t) <==> (cur.start <= t < cur.end) || InBlocks(rest, t)
    decreases |rest|
  {
    if |rest| > 0 {
      var next := rest[0];
      var tail := rest[1..];
      assert rest == [next] + tail;
      InBlocksCons(next, tail, t);
      assert forall i :: 0 <= i < |tail| ==> tail[i] == rest[i + 1];
      if cur.end >= next.start {
        var grown := cur.(end := Max(cur.end, next.end));
        MergeFromCoverage(grown, tail, t);
      } else {
        MergeFromCoverage(next, tail, t);
        var r := MergeFrom(next, tail);
        assert MergeFrom(cur, rest) == [cur] + r;
        InBlocksCons(cur, r, t);
      }
    }
  }

  lemma InBlocksCons(b: Block, rest: seq<Block>, t: int)
    ensures InBlocks([b] + rest, t) <==> (b.start <= t < b.end) || InBlocks(rest, t)
  {
    if InBlocks(rest, t) {
      var x :| x in rest && x.start <= t < x.end;
      assert x in [b] + rest;
    }
  }

  lemma MergeCoverage(bs: seq<Block>, t: int)
    requires SortedByStart(bs)
    ensures InBlocks(Merge(bs), t) <==> InBlocks(bs, t)
  {
    if |bs| > 0 {
      MergeFromCoverage(bs[0], bs[1..], t);
      assert bs == [bs[0]] + bs[1..];
      InBlocksCons(bs[0], bs[1..], t);
    }
  }

  /** Merging well-formed blocks yields well-formed blocks. */
  lemma {:induction false} MergeFromWellFormed(cur: Block, rest: seq<Block>)
    requires cur.start <= cur.end && WellFormed(rest)
    ensures WellFormed(MergeFrom(cur, rest))
    decreases |rest|
  {
    if |rest| > 0 {
      if cur.end >= rest[0].start {
        MergeFromWellFormed(cur.(end := Max(cur.end, rest[0].end)), rest[1..]);
      } else {
        MergeFromWellFormed(rest[0], rest[1..]);
      }
    }
  }

  lemma MergeWellFormed(bs: seq<Block>)
    requires WellFormed(bs)
    ensures WellFormed(Merge(bs))
  {
    if |bs| > 0 {
      MergeFromWellFormed(bs[0], bs[1..]);
    }
  }

  /** Merging blocks of positive width yields blocks of positive width. */
  lemma {:induction false} MergeFromWide(cur: Block, rest: seq<Block>)
    requires cur.start < cur.end && Wide(rest)
    ensures Wide(MergeFrom(cur, rest))
    decreases |rest|
  {
    if |rest| > 0 {
      if cur.end >= rest[0].start {
        MergeFromWide(cur.(end := Max(cur.end, rest[0].end)), rest[1..]);
      } else {
        MergeFromWide(rest[0], rest[1..]);
      }
    }
  }

  lemma MergeWide(bs: seq<Block>)
    requires Wide(bs)
    ensures Wide(Merge(bs))
  {
    if |bs| > 0 {
      MergeFromWide(bs[0], bs[1..]);
    }
  }

  /** Blocks that are already strictly apart are returned unchanged. */
  lemma {:induction false} MergeFromSeparated(cur: Block, rest: seq<Block>)
    requires Separated([cur] + rest)
    ensures MergeFrom(cur, rest) == [cur] + rest
    decreases |rest|
  {
    if |rest| > 0 {
      assert ([cur] + rest)[0].end < ([cur] + rest)[1].start;
      assert [rest[0]] + rest[1..] == rest;
      assert Separated([rest[0]] + rest[1..]) by {
        forall i | 0 <= i < |rest| - 1 ensures rest[i].end < rest[i + 1].start {
          assert ([cur] + rest)[i + 1] == rest[i];
          assert ([cur] + rest)[i + 2] == rest[i + 1];
        }
      }
      MergeFromSeparated(rest[0], rest[1..]);
    }
  }

  /** Merge idempotence: merging a merged list returns it unchanged. */
  lemma MergeIdempotent(bs: seq<Block>)
    ensures Merge(Merge(bs)) == Merge(bs)
  {
    var m := Merge(bs);
    if |m| > 0 {
      assert [m[0]] + m[1..] == m;
      MergeFromSeparated(m[0], m[1..]);
    }
  }

  // ---------------------------------------------------------------------------
  // Free gaps: a cursor walks the blocks from the window start; every stretch
  // between the cursor and the next block start (clipped to the window end)
  // that has positive width is free, and so is the tail after the last block.
  // ---------------------------------------------------------------------------

  function Gaps(blocks: seq<Block>, cursor: int, hi: int): (r: seq<Interval>)
    ensures forall i :: 0 <= i < |r| ==> cursor <= r[i].start < r[i].end <= hi
    ensures WellFormed(blocks) ==> Chain(r)
    decreases |blocks|
  {
    if |blocks| == 0 then
      if cursor < hi then [Interval(cursor, hi)] else []
    else
      var b := blocks[0];
      var gap := if b.start > cursor && Min(b.start, hi) > cursor then [Interval(cursor, Min(b.start, hi))] else [];
      var tail := Gaps(blocks[1..], Max(cursor, b.end), hi);
      assert WellFormed(blocks) ==> WellFormed(blocks[1..]);
      gap + tail
  }

  /** No free minute lies in a block (the blocks being sorted by start). */
  lemma {:induction false} GapsAvoidBlocks(blocks: seq<Block>, cursor: int, hi: int, t: int)
    requires SortedByStart(blocks)
    requires InIntervals(Gaps(blocks, cursor, hi), t)
    ensures !InBlocks(blocks, t)
    decreases |blocks|
  {
    if |blocks| > 0 {
      var b := blocks[0];
      var gap := if b.start > cursor && Min(b.start, hi) > cursor then [Interval(cursor, Min(b.start, hi))] else [];
      var tail := Gaps(blocks[1..], Max(cursor, b.end), hi);
      assert Gaps(blocks, cursor, hi) == gap + tail;
      assert blocks == [b] + blocks[1..];
      if InIntervals(tail, t) {
        GapsAvoidBlocks(blocks[1..], Max(cursor, b.end), hi, t);
        var iv :| iv in tail && iv.start <= t < iv.end;
      } else {
        var iv :| iv in gap && iv.start <= t < iv.end;
        assert t < b.start;
      }
    }
  }

  /** Every window minute after the cursor that no block covers is free. */
  lemma {:induction false} GapsCover(blocks: seq<Block>, cursor: int, hi: int, t: int)
    requires cursor <= t < hi
    requires !InBlocks(blocks, t)
    ensures InIntervals(Gaps(blocks, cursor, hi), t)
    decreases |blocks|
  {
    if |blocks| == 0 {
      assert Interval(cursor, hi) in Gaps(blocks, cursor, hi);
    } else {
      var b := blocks[0];
      var gap := if b.start > cursor && Min(b.start, hi) > cursor then [Interval(cursor, Min(b.start, hi))] else [];
      var tail := Gaps(blocks[1..], Max(cursor, b.end), hi);
      assert Gaps(blocks, cursor, hi) == gap + tail;
      assert b in blocks;
      if t < b.start {
        assert Interval(cursor, Min(b.start, hi)) in gap;
      } else {
        assert !InBlocks(blocks[1..], t) by {
          forall c | c in blocks[1..] ensures !(c.start <= t < c.end) {
            assert c in blocks;
          }
        }
        GapsCover(blocks[1..], Max(cursor, b.end), hi, t);
        var iv :| iv in tail && iv.start <= t < iv.end;
        assert iv in gap + tail;
      }
    }
  }

  /** Every interval ends at `hi` or at the start of some block. */
  ghost predicate EndsAtBlocks(ivs: seq<Interval>, blocks: seq<Block>, hi: int) {
    forall i :: 0 <= i < |ivs| ==> ivs[i].end == hi || exists b :: b in blocks && b.start == ivs[i].end
  }

  /** A free stretch ends at the window end or where some block starts. */
  lemma {:induction false} GapsEndAtBlocks(blocks: seq<Block>, cursor: int, hi: int)
    ensures EndsAtBlocks(Gaps(blocks, cursor, hi), blocks, hi)
    decreases |blocks|
  {
    if |blocks| > 0 {
      var b := blocks[0];
      var gap := if b.start > cursor && Min(b.start, hi) > cursor then [Interval(cursor, Min(b.start, hi))] else [];
      var tail := Gaps(blocks[1..], Max(cursor, b.end), hi);
      GapsEndAtBlocks(blocks[1..], Max(cursor, b.end), hi);
      var r := gap + tail;
      assert Gaps(blocks, cursor, hi) == r;
      forall i | 0 <= i < |r| ensures r[i].end == hi || exists c :: c in blocks && c.start == r[i].end {
        if i < |gap| {
          assert r[i].end == Min(b.start, hi) && b in blocks;
        } else {
          assert r[i] == tail[i - |gap|];
          if r[i].end != hi {
            var c :| c in blocks[1..] && c.start == r[i].end;
            assert c in blocks;
          }
        }
      }
    }
  }

  /** With blocks of positive width, a stretch that stops before `hi` stops at a blocked minute. */
  lemma EndIsBlocked(ivs: seq<Interval>, blocks: seq<Block>, hi: int, i: int)
    requires Wide(blocks) && EndsAtBlocks(ivs, blocks, hi)
    requires 0 <= i < |ivs| && ivs[i].end < hi
    ensures InBlocks(blocks, ivs[i].end)
  {
    var b :| b in blocks && b.start == ivs[i].end;
    var k :| 0 <= k < |blocks| && blocks[k] == b;
  }
}

=== FILE: measure.dfy ===
/** Counting minutes: the measure behind "total free minutes". */
module Measure {
  import opened Intervals

  /** The number of minutes `t` in `[lo, hi)` for which `p(t)` holds. */
  function Count(p: int -> bool, lo: int, hi: int): (n: nat)
    ensures n <= if lo <= hi then hi - lo else 0
    decreases hi - lo
  {
    if lo >= hi then 0 else (if p(lo) then 1 else 0) + Count(p, lo + 1, hi)
  }

  lemma {:induction false} CountSplit(p: int -> bool, lo: int, mid: int, hi: int)
    requires lo <= mid <= hi
    ensures Count(p, lo, hi) == Count(p, lo, mid) + Count(p, mid, hi)
    decreases mid - lo
  {
    if lo < mid {
      CountSplit(p, lo + 1, mid, hi);
    }
  }

  /** Counting is monotone in the predicate. */
  lemma {:induction false} CountMonotone(p: int -> bool, q: int -> bool, lo: int, hi: int)
    requires forall t :: lo <= t < hi && p(t) ==> q(t)
    ensures Count(p, lo, hi) <= Count(q, lo, hi)
    decreases hi - lo
  {
    if lo < hi {
      CountMonotone(p, q, lo + 1, hi);
    }
  }

  lemma CountSame(p: int -> bool, q: int -> bool, lo: int, hi: int)
    requires forall t :: lo <= t < hi ==> p(t) == q(t)
    ensures Count(p, lo, hi) == Count(q, lo, hi)
  {
    CountMonotone(p, q, lo, hi);
    CountMonotone(q, p, lo, hi);
  }

  lemma {:induction false} CountAll(p: int -> bool, lo: int, hi: int)
    requires lo <= hi
    requires forall t :: lo <= t < hi ==> p(t)
    ensures Count(p, lo, hi) == hi - lo
    decreases hi - lo
  {
    if lo < hi {
      CountAll(p, lo + 1, hi);
    }
  }

  lemma {:induction false} CountNone(p: int -> bool, lo: int, hi: int)
    requires forall t :: lo <= t < hi ==> !p(t)
    ensures Count(p, lo, hi) == 0
    decreases hi - lo
  {
    if lo < hi {
      CountNone(p, lo + 1, hi);
    }
  }

  /** The summed widths of a list of intervals. */
  function TotalWidth(ivs: seq<Interval>): int {
    if |ivs| == 0 then 0 else (ivs[0].end - ivs[0].start) + TotalWidth(ivs[1..])
  }

  /**
   * For non-overlapping intervals inside `[lo, hi)` the summed widths are the
   * number of minutes they cover.
   */
  lemma {:induction false} WidthIsCount(ivs: seq<Interval>, lo: int, hi: int)
    requires Chain(ivs)
    requires forall i :: 0 <= i < |ivs| ==> lo <= ivs[i].start <= ivs[i].end <= hi
    ensures TotalWidth(ivs) == Count(t => InIntervals(ivs, t), lo, hi)
    decreases |ivs|
  {
    var inAll := t => InIntervals(ivs, t);
    if |ivs| == 0 {
      CountNone(inAll, lo, hi);
    } else {
      var f := ivs[0];
      var rest := ivs[1..];
      var inRest := t => InIntervals(rest, t);
      ChainTail(ivs);
      InIntervalsCons(ivs);
      CountSplit(inAll, lo, f.start, hi);
      CountSplit(inAll, f.start, f.end, hi);
      CountNone(inAll, lo, f.start);
      CountAll(inAll, f.start, f.end);
      CountSame(inAll, inRest, f.end, hi);
      WidthIsCount(rest, f.end, hi);
      assert forall t :: lo <= t < f.end ==> !InIntervals(rest, t);
      CountNone(inRest, lo, f.end);
      CountSplit(inRest, lo, f.end, hi);
    }
  }

  /** The intervals after the first of a chain form a chain and start after the first ends. */
  lemma ChainTail(ivs: seq<Interval>)
    requires Chain(ivs) && |ivs| > 0
    ensures Chain(ivs[1..])
    ensures forall iv :: iv in ivs[1..] ==> ivs[0].end <= iv.start
  {
    var rest := ivs[1..];
    forall iv | iv in rest ensures ivs[0].end <= iv.start {
      var j :| 0 <= j < |rest| && rest[j] == iv;
      assert ivs[j + 1] == iv;
    }
    forall i, j | 0 <= i < j < |rest| ensures rest[i].end <= rest[j].start {
      assert ivs[i + 1] == rest[i] && ivs[j + 1] == rest[j];
    }
  }

  lemma InIntervalsCons(ivs: seq<Interval>)
    requires |ivs| > 0
    ensures forall t :: InIntervals(ivs, t) <==> (ivs[0].start <= t < ivs[0].end) || InIntervals(ivs[1..], t)
  {
    assert ivs == [ivs[0]] + ivs[1..];
  }
}

=== FILE: roster.dfy ===
/** The staff roster: from the staff sheet when there is one, else from the schedule's names. */
module Roster {
  import opened Wrappers
  import opened Text
  import opened Rows
  import opened Detection
  import opened Availability

  const SheetNameKeywords: seq<string> := ["姓名", "Name", "服務員", "照服員"]
  const SheetIdKeywords: seq<string> := ["員編", "ID", "編號"]
  const DefaultNameKey: string := "姓名"
  const DefaultIdKey: string := "員編"
  /** The placeholders for a missing id and a missing name; the latter also marks rows to drop. */
  const UnknownId: string := "Unknown"
  const UnknownName: string := "Unknown Name"

  /** `v || fallback`. */
  function OrDefault(v: Option<Value>, fallback: string): (r: Value)
    ensures Truthy(v) ==> r == v.value
    ensures !Truthy(v) ==> r == Str(fallback)
  {
    if Truthy(v) then v.value else Str(fallback)
  }

  /** One staff-sheet row as `{id, name}`, with the placeholders for missing cells. */
  function StaffOf(row: Row, nameKey: string, idKey: string): Staff {
    Staff(OrDefault(Lookup(row, idKey), UnknownId), OrDefault(Lookup(row, nameKey), UnknownName))
  }

  /** The staff of `rows` in order, without those whose name resolves to `Unknown Name`. */
  function KeepNamed(rows: seq<Row>, nameKey: string, idKey: string): (r: seq<Staff>)
    ensures |r| <= |rows|
    ensures forall s :: s in r ==> s.name != Str(UnknownName)
    ensures forall s :: s in r <==> exists row :: row in rows && StaffOf(row, nameKey, idKey) == s && s.name != Str(UnknownName)
  {
    if |rows| == 0 then []
    else
      var init := rows[..|rows| - 1];
      var last := rows[|rows| - 1];
      assert rows == init + [last];
      var s := StaffOf(last, nameKey, idKey);
      if s.name != Str(UnknownName) then KeepNamed(init, nameKey, idKey) + [s]
      else KeepNamed(init, nameKey, idKey)
  }

  /**
   * The roster is built row by row: every staff row with a name gives one
   * member, in sheet order, duplicates included.
   */
  lemma {:induction false} KeepNamedAppend(a: seq<Row>, b: seq<Row>, nameKey: string, idKey: string)
    ensures KeepNamed(a + b, nameKey, idKey) == KeepNamed(a, nameKey, idKey) + KeepNamed(b, nameKey, idKey)
    decreases |b|
  {
    if |b| == 0 {
      assert a + b == a;
    } else {
      var init := b[..|b| - 1];
      var last := b[|b| - 1];
      var s := StaffOf(last, nameKey, idKey);
      var extra := if s.name != Str(UnknownName) then [s] else [];
      assert KeepNamed(a + b, nameKey, idKey) == KeepNamed(a + init, nameKey, idKey) + extra by {
        SnocSplit(a, b);
      }
      KeepNamedAppend(a, init, nameKey, idKey);
      ConcatAssoc(KeepNamed(a, nameKey, idKey), KeepNamed(init, nameKey, idKey), extra);
    }
  }

  /** A single row gives its member unless the name resolves to `Unknown Name`. */
  lemma KeepNamedOne(row: Row, nameKey: string, idKey: string)
    ensures KeepNamed([row], nameKey, idKey)
            == if StaffOf(row, nameKey, idKey).name != Str(UnknownName) then [StaffOf(row, nameKey, idKey)] else []
  {
    assert [row][..0] == [];
  }

  /**
   * `sKeys.find(k => keywords.some(kw => k.includes(kw))) || fallback`: the
   * first name that mentions a keyword, or the fallback when none does.
   */
  function SheetKey(keys: seq<string>, keywords: seq<string>, fallback: string): (k: string)
    ensures (exists i :: 0 <= i < |keys| && keys[i] == k && MentionsAny(k, keywords)
                         && forall j :: 0 <= j < i ==> !MentionsAny(keys[j], keywords))
            || (k == fallback && forall i :: 0 <= i < |keys| ==> !MentionsAny(keys[i], keywords))
  {
    var r := FindKey(keys, keywords, []);
    assert forall x :: !MentionsAny(x, []);
    if r.Some? then
      var i :| FirstSatisfying(keys, i, x => Admits(x, keywords, [])) && keys[i] == r.value;
      r.value
    else fallback
  }

  /**
   * The roster from a staff sheet: the name and id columns are found among the
   * first row's (untrimmed) names, defaulting to `姓名` and `員編`; every row
   * whose name does not resolve to `Unknown Name` gives one staff member.
   */
  function TableRoster(rawStaff: seq<Row>): (r: seq<Staff>)
    requires |rawStaff| > 0
    ensures var nameKey := SheetKey(Keys(rawStaff[0]), SheetNameKeywords, DefaultNameKey);
            var idKey := SheetKey(Keys(rawStaff[0]), SheetIdKeywords, DefaultIdKey);
            forall s :: s in r <==> exists row :: row in rawStaff && StaffOf(row, nameKey, idKey) == s && s.name != Str(UnknownName)
  {
    var keys := Keys(rawStaff[0]);
    KeepNamed(rawStaff, SheetKey(keys, SheetNameKeywords, DefaultNameKey), SheetKey(keys, SheetIdKeywords, DefaultIdKey))
  }

  /** `a` occurs in `vs` before the first occurrence of `b`. */
  ghost predicate OccursBefore(vs: seq<Value>, a: Value, b: Value) {
    exists p :: 0 <= p < |vs| && vs[p] == a && forall q :: 0 <= q <= p ==> vs[q] != b
  }

  /** Every element of `r` occurs in `vs` before the first occurrence of each later one. */
  ghost predicate InFirstOccurrenceOrder(r: seq<Value>, vs: seq<Value>) {
    forall i, j :: 0 <= i < j < |r| ==> OccursBefore(vs, r[i], r[j])
  }

  predicate NoDuplicates(vs: seq<Value>) {
    forall i, j :: 0 <= i < j < |vs| ==> vs[i] != vs[j]
  }

  /**
   * `new Set(names.filter(Boolean))` read back in insertion order: each truthy
   * name once, in the order of first occurrence.
   */
  function DistinctNames(names: seq<Option<Value>>): (r: seq<Value>)
    ensures NoDuplicates(r)
    ensures forall v :: v in r <==> Some(v) in names && Truthy(Some(v))
  {
    if |names| == 0 then []
    else
      var init := names[..|names| - 1];
      var last := names[|names| - 1];
      assert names == init + [last];
      var prev := DistinctNames(init);
      if Truthy(last) && last.value !in prev then prev + [last.value] else prev
  }

  /** The names come out in order of first occurrence. */
  lemma {:induction false} DistinctNamesInOrder(names: seq<Option<Value>>)
    ensures InFirstOccurrenceOrder(DistinctNames(names), Values(names))
  {
    if |names| > 0 {
      var init := names[..|names| - 1];
      DistinctNamesInOrder(init);
      var prev := DistinctNames(init);
      var r := DistinctNames(names);
      var vs := Values(names);
      assert Values(init) == vs[..|init|];
      forall i, j | 0 <= i < j < |r| ensures OccursBefore(vs, r[i], r[j]) {
        if j < |prev| {
          assert r[i] == prev[i] && r[j] == prev[j];
          OccursBeforePrefix(vs, |init|, prev[i], prev[j]);
        } else {
          assert r[i] in prev;
          OccursBeforeNew(names, r[i], r[j]);
        }
      }
    }
  }

  /** An order seen in a prefix of the values holds in all of them. */
  lemma OccursBeforePrefix(vs: seq<Value>, n: nat, a: Value, b: Value)
    requires n <= |vs| && OccursBefore(vs[..n], a, b)
    ensures OccursBefore(vs, a, b)
  {
    var p :| 0 <= p < n && vs[..n][p] == a && forall q :: 0 <= q <= p ==> vs[..n][q] != b;
    assert vs[p] == a;
    assert forall q :: 0 <= q <= p ==> vs[q] == vs[..n][q];
  }

  /** A name already listed before the last cell occurs before the name the last cell adds. */
  lemma OccursBeforeNew(names: seq<Option<Value>>, a: Value, b: Value)
    requires |names| > 0
    requires a in DistinctNames(names[..|names| - 1])
    requires b !in DistinctNames(names[..|names| - 1]) && Truthy(Some(b))
    ensures OccursBefore(Values(names), a, b)
  {
    var init := names[..|names| - 1];
    var vs := Values(names);
    assert Some(a) in init;
    var p :| 0 <= p < |init| && init[p] == Some(a);
    assert vs[p] == a;
    forall q | 0 <= q <= p ensures vs[q] != b {
      assert names[q] == init[q];
    }
  }

  /** The cells as values; a missing cell becomes the (falsy) empty string. */
  function Values(names: seq<Option<Value>>): (vs: seq<Value>)
    ensures |vs| == |names|
    ensures forall i :: 0 <= i < |names| ==> vs[i] == names[i].GetOr(Str(""))
  {
    seq(|names|, i requires 0 <= i < |names| => names[i].GetOr(Str("")))
  }

  /** The generated id of the `i`-th derived staff member. */
  function GeneratedId(i: nat): string {
    "GEN-" + NatToString(i)
  }

  /** Without a staff sheet: the distinct schedule names, numbered `GEN-0`, `GEN-1`, … */
  function GeneratedRoster(schedule: seq<Row>): (r: seq<Staff>)
    ensures forall i :: 0 <= i < |r| ==> r[i].id == Str(GeneratedId(i))
  {
    var names := DistinctNames(StaffNames(schedule));
    seq(|names|, i requires 0 <= i < |names| => Staff(Str(GeneratedId(i)), names[i]))
  }

  /** The staff cell of every schedule row. */
  function StaffNames(schedule: seq<Row>): (r: seq<Option<Value>>)
    ensures |r| == |schedule| && forall i :: 0 <= i < |schedule| ==> r[i] == Lookup(schedule[i], StaffField)
  {
    seq(|schedule|, i requires 0 <= i < |schedule| => Lookup(schedule[i], StaffField))
  }

  /**
   * The roster: the staff sheet's whenever it has a row, else the one derived
   * from the schedule, whose members never share a name or an id.
   */
  function BuildRoster(rawStaff: seq<Row>, schedule: seq<Row>): (r: seq<Staff>)
    ensures |rawStaff| > 0 ==> r == TableRoster(rawStaff) && forall s :: s in r ==> s.name != Str(UnknownName)
    ensures |rawStaff| == 0 ==> r == GeneratedRoster(schedule)
                                && forall i, j :: 0 <= i < j < |r| ==> r[i].name != r[j].name && r[i].id != r[j].id
  {
    if |rawStaff| > 0 then TableRoster(rawStaff)
    else
      GeneratedRosterDistinct(schedule);
      GeneratedRoster(schedule)
  }

  /** The derived roster never repeats a name, and no two of its members share an id. */
  lemma GeneratedRosterDistinct(schedule: seq<Row>)
    ensures var r := GeneratedRoster(schedule);
            forall i, j :: 0 <= i < j < |r| ==> r[i].name != r[j].name && r[i].id != r[j].id
  {
    var r := GeneratedRoster(schedule);
    var names := DistinctNames(StaffNames(schedule));
    forall i, j | 0 <= i < j < |r| ensures r[i].name != r[j].name && r[i].id != r[j].id {
      assert r[i].name == names[i] && r[j].name == names[j];
      if r[i].id == r[j].id {
        assert GeneratedId(i)[4..] == NatToString(i);
        assert GeneratedId(j)[4..] == NatToString(j);
        NatToStringInjective(i, j);
      }
    }
  }

  /** The derived roster lists exactly the truthy staff cells of the schedule. */
  lemma GeneratedRosterNames(schedule: seq<Row>, v: Value)
    ensures var r := GeneratedRoster(schedule);
            (exists i :: 0 <= i < |r| && r[i].name == v)
            <==> exists k :: 0 <= k < |schedule| && Lookup(schedule[k], StaffField) == Some(v) && Truthy(Some(v))
  {
    if exists k :: 0 <= k < |schedule| && Lookup(schedule[k], StaffField) == Some(v) && Truthy(Some(v)) {
      var k :| 0 <= k < |schedule| && Lookup(schedule[k], StaffField) == Some(v) && Truthy(Some(v));
      GeneratedRosterHas(schedule, k, v);
    }
    if exists i :: 0 <= i < |GeneratedRoster(schedule)| && GeneratedRoster(schedule)[i].name == v {
      var i :| 0 <= i < |GeneratedRoster(schedule)| && GeneratedRoster(schedule)[i].name == v;
      GeneratedRosterFrom(schedule, i);
    }
  }

  lemma GeneratedRosterHas(schedule: seq<Row>, k: int, v: Value)
    requires 0 <= k < |schedule| && Lookup(schedule[k], StaffField) == Some(v) && Truthy(Some(v))
    ensures exists i :: 0 <= i < |GeneratedRoster(schedule)| && GeneratedRoster(schedule)[i].name == v
  {
    var cells := StaffNames(schedule);
    var names := DistinctNames(cells);
    assert cells[k] == Some(v);
    assert v in names;
    var i :| 0 <= i < |names| && names[i] == v;
    assert GeneratedRoster(schedule)[i].name == v;
  }

  lemma GeneratedRosterFrom(schedule: seq<Row>, i: int)
    requires 0 <= i < |GeneratedRoster(schedule)|
    ensures var v := GeneratedRoster(schedule)[i].name;
            exists k :: 0 <= k < |schedule| && Lookup(schedule[k], StaffField) == Some(v) && Truthy(Some(v))
  {
    var cells := StaffNames(schedule);
    var names := DistinctNames(cells);
    var v := GeneratedRoster(schedule)[i].name;
    assert names[i] == v;
    assert Some(v) in cells;
    var k :| 0 <= k < |cells| && cells[k] == Some(v);
    assert Lookup(schedule[k], StaffField) == Some(v);
  }

  /** The derived roster keeps the order in which names first appear in the schedule. */
  lemma GeneratedRosterOrder(schedule: seq<Row>)
    ensures InFirstOccurrenceOrder(Names(GeneratedRoster(schedule)), Values(StaffNames(schedule)))
  {
    var names := DistinctNames(StaffNames(schedule));
    DistinctNamesInOrder(StaffNames(schedule));
    assert Names(GeneratedRoster(schedule)) == names;
  }

  function Names(staff: seq<Staff>): (r: seq<Value>)
    ensures |r| == |staff| && forall i :: 0 <= i < |staff| ==> r[i] == staff[i].name
  {
    seq(|staff|, i requires 0 <= i < |staff| => staff[i].name)
  }

  lemma ThreeNames(a: Value, b: Value)
    requires Truthy(Some(a)) && Truthy(Some(b)) && a != b
    ensures DistinctNames([Some(a), Some(b), Some(a)]) == [a, b]
  {
    var names := [Some(a), Some(b), Some(a)];
    assert names[..2] == [Some(a), Some(b)];
    assert names[..2][..1] == [Some(a)];
    assert [Some(a)][..0] == [];
    assert DistinctNames([Some(a)]) == [a];
    assert DistinctNames(names[..2]) == [a, b];
  }

  /** The worked example: 王小明, 李大華, 王小明 and no staff sheet give two staff, GEN-0 and GEN-1. */
  lemma RosterFallbackExample()
    ensures var schedule := [[Cell(StaffField, Str("王小明"))], [Cell(StaffField, Str("李大華"))], [Cell(StaffField, Str("王小明"))]];
            BuildRoster([], schedule) == [Staff(Str("GEN-0"), Str("王小明")), Staff(Str("GEN-1"), Str("李大華"))]
  {
    var a, b := Str("王小明"), Str("李大華");
    var schedule := [[Cell(StaffField, a)], [Cell(StaffField, b)], [Cell(StaffField, a)]];
    assert a != b by { assert a.s[0] != b.s[0]; }
    SingleCell(a);
    SingleCell(b);
    assert StaffNames(schedule) == [Some(a), Some(b), Some(a)];
    ThreeNames(a, b);
    TwoGenerated(schedule, a, b);
    FirstIds();
  }

  lemma SingleCell(v: Value)
    ensures Lookup([Cell(StaffField, v)], StaffField) == Some(v)
  {
  }

  lemma FirstIds()
    ensures GeneratedId(0) == "GEN-0" && GeneratedId(1) == "GEN-1"
  {
    assert NatToString(0) == "0" && NatToString(1) == "1";
  }

  lemma TwoGenerated(schedule: seq<Row>, a: Value, b: Value)
    requires DistinctNames(StaffNames(schedule)) == [a, b]
    ensures GeneratedRoster(schedule) == [Staff(Str(GeneratedId(0)), a), Staff(Str(GeneratedId(1)), b)]
  {
  }
}

=== FILE: rows.dfy ===
/**
 * The tabular row model: a spreadsheet row as the JavaScript object the
 * spreadsheet reader produces, i.e. an ordered list of named cells.
 */
module Rows {
  import opened Wrappers
  import opened Text

  /**
   * A cell value. `Num` is a JavaScript number (NaN is not modelled).
   * `DateVal` is a JavaScript `Date` object: `day` is what formatting it as
   * `yyyy-MM-dd` in local time yields (`None` for an Invalid Date, which makes
   * formatting throw) and `ref` is the object's identity, so that two `Date`
   * objects are `===` exactly when they are the same object.
   */
  datatype Value = Str(s: string) | Num(n: real) | DateVal(day: Option<string>, ref: nat)

  /** JavaScript truthiness of a property read; a missing property reads as `undefined`. */
  predicate Truthy(v: Option<Value>) {
    match v
    case None => false
    case Some(Str(s)) => s != ""
    case Some(Num(n)) => n != 0.0
    case Some(DateVal(_, _)) => true
  }

  datatype Cell = Cell(key: string, val: Value)

  /**
   * A row in property order. A property whose value is `undefined` is modelled
   * as absent: every reader in the source reads properties by name, where the two
   * are indistinguishable.
   */
  type Row = seq<Cell>

  /** `Object.keys(row)`. */
  function Keys(row: Row): (ks: seq<string>)
    ensures |ks| == |row| && forall i :: 0 <= i < |row| ==> ks[i] == row[i].key
  {
    seq(|row|, i requires 0 <= i < |row| => row[i].key)
  }

  predicate HasKey(row: Row, k: string) {
    exists i :: 0 <= i < |row| && row[i].key == k
  }

  /** A JavaScript object never holds the same property twice. */
  predicate DistinctKeys(row: Row) {
    forall i, j :: 0 <= i < j < |row| ==> row[i].key != row[j].key
  }

  /** Position of the first cell at or after `from` named `k`. */
  function IndexFrom(row: Row, k: string, from: nat): (r: Option<nat>)
    requires from <= |row|
    ensures r.None? <==> forall j :: from <= j < |row| ==> row[j].key != k
    ensures r.Some? ==> from <= r.value < |row| && row[r.value].key == k
                        && forall j :: from <= j < r.value ==> row[j].key != k
    decreases |row| - from
  {
    if from == |row| then None
    else if row[from].key == k then Some(from)
    else IndexFrom(row, k, from + 1)
  }

  /** Position of the first cell named `k`. */
  function IndexOf(row: Row, k: string): (r: Option<nat>)
    ensures r.None? <==> !HasKey(row, k)
    ensures r.Some? ==> r.value < |row| && row[r.value].key == k
                        && forall j :: 0 <= j < r.value ==> row[j].key != k
  {
    IndexFrom(row, k, 0)
  }

  /** Two rows with the same names in the same places find every name at the same place. */
  lemma SameKeysSameIndex(a: Row, b: Row, k: string)
    requires |a| == |b| && forall i :: 0 <= i < |a| ==> a[i].key == b[i].key
    ensures IndexOf(a, k) == IndexOf(b, k)
  {
    var ia, ib := IndexOf(a, k), IndexOf(b, k);
    if ia.Some? {
      assert b[ia.value].key == k;
    }
    if ib.Some? {
      assert a[ib.value].key == k;
    }
  }

  /** Appending a cell leaves the names already present where they were. */
  lemma IndexOfAppend(row: Row, c: Cell, k: string)
    ensures IndexOf(row + [c], k) == if HasKey(row, k) then IndexOf(row, k)
                                    else if c.key == k then Some(|row|) else None
  {
    var r := row + [c];
    var ir := IndexOf(r, k);
    if HasKey(row, k) {
      var i := IndexOf(row, k).value;
      assert r[i].key == k;
    } else if c.key == k {
      assert r[|row|].key == k;
    }
  }

  /** Property read `row[k]`. */
  function Lookup(row: Row, k: string): (r: Option<Value>)
    ensures r.None? <==> !HasKey(row, k)
    ensures DistinctKeys(row) ==> forall i :: 0 <= i < |row| && row[i].key == k ==> r == Some(row[i].val)
  {
    match IndexOf(row, k)
    case None => None
    case Some(i) => Some(row[i].val)
  }

  /** Overwriting the value of the cell at `i` changes what is read at its name and nothing else. */
  lemma UpdateFacts(row: Row, i: nat, k: string, v: Value)
    requires i < |row| && row[i].key == k && IndexOf(row, k) == Some(i)
    ensures Lookup(row[i := Cell(k, v)], k) == Some(v)
    ensures forall k' :: k' != k ==> Lookup(row[i := Cell(k, v)], k') == Lookup(row, k')
    ensures Keys(row[i := Cell(k, v)]) == Keys(row)
  {
    var r := row[i := Cell(k, v)];
    forall k' ensures IndexOf(r, k') == IndexOf(row, k') {
      SameKeysSameIndex(r, row, k');
    }
  }

  /** Appending a new name makes it readable and changes nothing else. */
  lemma AppendFacts(row: Row, k: string, v: Value)
    requires !HasKey(row, k)
    ensures Lookup(row + [Cell(k, v)], k) == Some(v)
    ensures forall k' :: k' != k ==> Lookup(row + [Cell(k, v)], k') == Lookup(row, k')
    ensures Keys(row + [Cell(k, v)]) == Keys(row) + [k]
    ensures DistinctKeys(row) ==> DistinctKeys(row + [Cell(k, v)])
  {
    var r := row + [Cell(k, v)];
    forall k' ensures IndexOf(r, k') == if HasKey(row, k') then IndexOf(row, k') else if k == k' then Some(|row|) else None {
      IndexOfAppend(row, Cell(k, v), k');
    }
    forall k' | k' != k ensures Lookup(r, k') == Lookup(row, k') {
      if HasKey(row, k') {
        assert r[IndexOf(row, k').value] == row[IndexOf(row, k').value];
      }
    }
  }

  /**
   * Property assignment `row[k] = v`: an existing property keeps its place and
   * takes the new value; a new one is appended.
   */
  function Put(row: Row, k: string, v: Value): (r: Row)
    ensures Lookup(r, k) == Some(v)
    ensures forall k' :: k' != k ==> Lookup(r, k') == Lookup(row, k')
    ensures HasKey(row, k) ==> Keys(r) == Keys(row)
    ensures !HasKey(row, k) ==> Keys(r) == Keys(row) + [k]
    ensures DistinctKeys(row) ==> DistinctKeys(r)
  {
    match IndexOf(row, k)
    case Some(i) =>
      UpdateFacts(row, i, k, v);
      row[i := Cell(k, v)]
    case None =>
      AppendFacts(row, k, v);
      row + [Cell(k, v)]
  }

  /** `Put` when the value may be `undefined`, which this model writes as absence. */
  function PutOpt(row: Row, k: string, v: Option<Value>): Row {
    match v
    case Some(x) => Put(row, k, x)
    case None => row
  }

  /** The last cell of `row` named `k` holds `v`. */
  ghost predicate LastIs(row: Row, k: string, v: Value) {
    exists i :: 0 <= i < |row| && row[i].key == k && row[i].val == v
                && forall j :: i < j < |row| ==> row[j].key != k
  }

  /**
   * Object spread `{...base, ...row}` (and property-by-property copying in
   * general): properties of `row` are assigned in order, the last one last.
   */
  function Spread(base: Row, row: Row): Row
    decreases |row|
  {
    if |row| == 0 then base
    else
      var c := row[|row| - 1];
      Put(Spread(base, row[..|row| - 1]), c.key, c.val)
  }

  lemma {:induction false} SpreadHasKey(base: Row, row: Row, k: string)
    ensures HasKey(Spread(base, row), k) <==> HasKey(base, k) || HasKey(row, k)
    decreases |row|
  {
    if |row| > 0 {
      var c := row[|row| - 1];
      var mid := Spread(base, row[..|row| - 1]);
      SpreadHasKey(base, row[..|row| - 1], k);
      HasKeySnoc(row, k);
      assert Spread(base, row) == Put(mid, c.key, c.val);
      if c.key != k {
        assert Lookup(Put(mid, c.key, c.val), k) == Lookup(mid, k);
      }
    }
  }

  /** A name occurs in a non-empty row when it occurs before the last cell or is the last cell's. */
  lemma HasKeySnoc(row: Row, k: string)
    requires |row| > 0
    ensures HasKey(row, k) <==> HasKey(row[..|row| - 1], k) || row[|row| - 1].key == k
  {
    if HasKey(row, k) && row[|row| - 1].key != k {
      var i :| 0 <= i < |row| && row[i].key == k;
      assert row[..|row| - 1][i].key == k;
    }
    if HasKey(row[..|row| - 1], k) {
      var i :| 0 <= i < |row| - 1 && row[..|row| - 1][i].key == k;
      assert row[i].key == k;
    }
  }

  /** Properties `row` does not mention keep their value from `base`. */
  lemma {:induction false} SpreadKeepsBase(base: Row, row: Row, k: string)
    requires !HasKey(row, k)
    ensures Lookup(Spread(base, row), k) == Lookup(base, k)
    decreases |row|
  {
    if |row| > 0 {
      HasKeySnoc(row, k);
      SpreadKeepsBase(base, row[..|row| - 1], k);
    }
  }

  /** A property of `row` ends up holding the value of its LAST occurrence in `row`. */
  lemma {:induction false} SpreadLastWins(base: Row, row: Row, k: string)
    requires HasKey(row, k)
    ensures Lookup(Spread(base, row), k).Some?
    ensures LastIs(row, k, Lookup(Spread(base, row), k).value)
    decreases |row|
  {
    var n := |row| - 1;
    var init := row[..n];
    HasKeySnoc(row, k);
    if row[n].key == k {
      assert Lookup(Spread(base, row), k) == Some(row[n].val);
      LastIsAt(row, k, n);
    } else {
      SpreadLastWins(base, init, k);
      assert Lookup(Spread(base, row), k) == Lookup(Spread(base, init), k);
      LastIsSnoc(row, k, Lookup(Spread(base, row), k).value);
    }
  }

  /** The last occurrence before a cell with another name is still the last occurrence. */
  lemma LastIsSnoc(row: Row, k: string, v: Value)
    requires |row| > 0 && row[|row| - 1].key != k && LastIs(row[..|row| - 1], k, v)
    ensures LastIs(row, k, v)
  {
    var init := row[..|row| - 1];
    var i :| 0 <= i < |init| && init[i].key == k && init[i].val == v
             && forall j :: i < j < |init| ==> init[j].key != k;
    assert row[i] == init[i];
    forall j | i < j < |row| ensures row[j].key != k {
      if j < |init| {
        assert row[j] == init[j];
      }
    }
    LastIsAt(row, k, i);
  }

  lemma LastIsAt(row: Row, k: string, i: nat)
    requires i < |row| && row[i].key == k && forall j :: i < j < |row| ==> row[j].key != k
    ensures LastIs(row, k, row[i].val)
  {
  }

  /** Spreading properties that are all new just appends them, in order. */
  lemma {:induction false} SpreadFresh(base: Row, row: Row)
    requires DistinctKeys(base + row)
    ensures Spread(base, row) == base + row
    decreases |row|
  {
    if |row| > 0 {
      var n := |row| - 1;
      var init := row[..n];
      var c := row[n];
      assert base + row == (base + init) + [c];
      assert forall i, j :: 0 <= i < j < |base + init| ==> (base + init)[i] == (base + row)[i] && (base + init)[j] == (base + row)[j];
      SpreadFresh(base, init);
      assert forall i :: 0 <= i < |base + init| ==> (base + init)[i].key != c.key by {
        forall i | 0 <= i < |base + init| ensures (base + init)[i].key != c.key {
          assert (base + init)[i] == (base + row)[i] && c == (base + row)[|base + init|];
        }
      }
      assert IndexOf(base + init, c.key).None?;
    }
  }

  /** Spreading into an object yields an object: no property twice. */
  lemma {:induction false} SpreadDistinct(base: Row, row: Row)
    requires DistinctKeys(base)
    ensures DistinctKeys(Spread(base, row))
    decreases |row|
  {
    if |row| > 0 {
      SpreadDistinct(base, row[..|row| - 1]);
    }
  }

  /**
   * `normalizeKeys`: copies every property under its trimmed name into a fresh
   * object, so that when two names trim to the same string the later one's value
   * wins (while the property keeps the place where the name first appeared).
   */
  function NormalizeKeys(row: Row): Row {
    Spread([], TrimmedCells(row))
  }

  /** Each cell renamed to its trimmed name. */
  function TrimmedCells(row: Row): (r: Row)
    ensures |r| == |row| && forall i :: 0 <= i < |row| ==> r[i] == Cell(Trim(row[i].key), row[i].val)
  {
    seq(|row|, i requires 0 <= i < |row| => Cell(Trim(row[i].key), row[i].val))
  }

  /** The last cell whose trimmed name is `k` holds `v`. */
  ghost predicate LastTrimmedIs(row: Row, k: string, v: Value) {
    exists i :: 0 <= i < |row| && Trim(row[i].key) == k && row[i].val == v
                && forall j :: i < j < |row| ==> Trim(row[j].key) != k
  }

  /** A row whose names are distinct and already trimmed is its own normal form. */
  lemma NormalizeUnchanged(row: Row)
    requires DistinctKeys(row)
    requires forall i :: 0 <= i < |row| ==> Trim(row[i].key) == row[i].key
    ensures NormalizeKeys(row) == row
  {
    assert TrimmedCells(row) == row;
    assert [] + row == row;
    SpreadFresh([], row);
  }

  /**
   * The normalised row has distinct names; it has a name exactly when some
   * original name trims to it, and then holds the value of the last such cell.
   */
  lemma NormalizeKeysLookup(row: Row, k: string)
    ensures DistinctKeys(NormalizeKeys(row))
    ensures HasKey(NormalizeKeys(row), k) <==> exists i :: 0 <= i < |row| && Trim(row[i].key) == k
    ensures HasKey(NormalizeKeys(row), k) ==> LastTrimmedIs(row, k, Lookup(NormalizeKeys(row), k).value)
  {
    var renamed := TrimmedCells(row);
    SpreadDistinct([], renamed);
    SpreadHasKey([], renamed, k);
    TrimmedHasKey(row, k);
    if HasKey(renamed, k) {
      SpreadLastWins([], renamed, k);
      TrimmedLastIs(row, k, Lookup(NormalizeKeys(row), k).value);
    }
  }

  lemma TrimmedHasKey(row: Row, k: string)
    ensures HasKey(TrimmedCells(row), k) <==> exists i :: 0 <= i < |row| && Trim(row[i].key) == k
  {
    var renamed := TrimmedCells(row);
    if HasKey(renamed, k) {
      var i :| 0 <= i < |renamed| && renamed[i].key == k;
      assert Trim(row[i].key) == k;
    }
    if exists i :: 0 <= i < |row| && Trim(row[i].key) == k {
      var i :| 0 <= i < |row| && Trim(row[i].key) == k;
      assert renamed[i].key == k;
    }
  }

  lemma TrimmedLastIs(row: Row, k: string, v: Value)
    requires LastIs(TrimmedCells(row), k, v)
    ensures LastTrimmedIs(row, k, v)
  {
    var renamed := TrimmedCells(row);
    var j :| 0 <= j < |renamed| && renamed[j].key == k && renamed[j].val == v
             && forall m :: j < m < |renamed| ==> renamed[m].key != k;
    assert Trim(row[j].key) == k && row[j].val == v;
    assert forall m :: j < m < |row| ==> Trim(row[m].key) != k by {
      forall m | j < m < |row| ensures Trim(row[m].key) != k {
        assert renamed[m].key == Trim(row[m].key);
      }
    }
  }
}

=== FILE: text.dfy ===
/** String helpers with the semantics of the JavaScript built-ins the source relies on. */
module Text {

  /** An ASCII decimal digit: what `\d` matches in a regular expression without the `u` flag. */
  predicate IsDigit(c: char) {
    '0' <= c <= '9'
  }

  function DigitValue(c: char): (d: nat)
    requires IsDigit(c)
    ensures d < 10
  {
    c as int - '0' as int
  }

  function DigitChar(d: nat): (c: char)
    requires d < 10
    ensures IsDigit(c) && DigitValue(c) == d
  {
    ('0' as int + d) as char
  }

  predicate AllDigits(s: string) {
    forall i :: 0 <= i < |s| ==> IsDigit(s[i])
  }

  predicate NoDigits(s: string) {
    forall i :: 0 <= i < |s| ==> !IsDigit(s[i])
  }

  /** `String.prototype.includes`: `sub` occurs somewhere in `s` (the empty string occurs everywhere). */
  function Contains(s: string, sub: string): (r: bool)
    ensures r <==> exists i :: 0 <= i <= |s| - |sub| && sub <= s[i..]
    decreases |s|
  {
    if sub <= s then
      assert sub <= s[0..];
      true
    else if |s| == 0 then
      false
    else
      var r := Contains(s[1..], sub);
      if r then
        var i :| 0 <= i <= |s[1..]| - |sub| && sub <= s[1..][i..];
        assert s[1..][i..] == s[i + 1..];
        r
      else
        assert forall i :: 1 <= i <= |s| - |sub| ==> s[i..] == s[1..][i - 1..];
        r
  }

  /**
   * The characters `String.prototype.trim` removes: the ECMAScript WhiteSpace
   * (tab, vertical tab, form feed, space, no-break space, byte order mark and
   * the Unicode space separators, among them the ideographic space U+3000 common
   * in CJK spreadsheets) and LineTerminator code points.
   */
  predicate IsJsSpace(c: char) {
    c == '\t' || c == '\n' || c == '\U{000B}' || c == '\U{000C}' || c == '\r' || c == ' '
    || c == '\U{00A0}' || c == '\U{1680}' || ('\U{2000}' <= c <= '\U{200A}')
    || c == '\U{2028}' || c == '\U{2029}' || c == '\U{202F}' || c == '\U{205F}'
    || c == '\U{3000}' || c == '\U{FEFF}'
  }

  /** The first position at or after `i` that does not hold white space (`|s|` if none). */
  function SkipSpace(s: string, i: nat): (n: nat)
    requires i <= |s|
    ensures i <= n <= |s|
    ensures forall k :: i <= k < n ==> IsJsSpace(s[k])
    ensures n == |s| || !IsJsSpace(s[n])
    decreases |s| - i
  {
    if i < |s| && IsJsSpace(s[i]) then SkipSpace(s, i + 1) else i
  }

  /** The end of `s[lo..j]` once its trailing white space is dropped. */
  function SkipSpaceBack(s: string, lo: nat, j: nat): (n: nat)
    requires lo <= j <= |s|
    ensures lo <= n <= j
    ensures forall k :: n <= k < j ==> IsJsSpace(s[k])
    ensures n == lo || !IsJsSpace(s[n - 1])
    decreases j
  {
    if lo < j && IsJsSpace(s[j - 1]) then SkipSpaceBack(s, lo, j - 1) else j
  }

  /** `String.prototype.trim`: `s` is some white space, then the result, then some white space. */
  function Trim(s: string): (r: string)
    ensures exists i, j :: 0 <= i <= j <= |s| && r == s[i..j]
                           && (forall k :: 0 <= k < i ==> IsJsSpace(s[k]))
                           && (forall k :: j <= k < |s| ==> IsJsSpace(s[k]))
    ensures |r| == 0 || (!IsJsSpace(r[0]) && !IsJsSpace(r[|r| - 1]))
  {
    var i := SkipSpace(s, 0);
    var j := SkipSpaceBack(s, i, |s|);
    s[i..j]
  }

  /** A string with no white space at either end is its own trim. */
  lemma TrimUnchanged(s: string)
    requires |s| > 0 && !IsJsSpace(s[0]) && !IsJsSpace(s[|s| - 1])
    ensures Trim(s) == s
  {
    assert SkipSpace(s, 0) == 0;
    assert SkipSpaceBack(s, 0, |s|) == |s|;
    assert s[0..|s|] == s;
  }

  /** A string misses every text containing a character it lacks. */
  lemma MissingCharNotContained(s: string, sub: string, c: char)
    requires c in sub && c !in s
    ensures !Contains(s, sub)
  {
  }

  /** Trimming twice trims nothing more. */
  lemma TrimIdempotent(s: string)
    ensures Trim(Trim(s)) == Trim(s)
  {
    var r := Trim(s);
    if |r| > 0 {
      TrimUnchanged(r);
    }
  }

  /** Decimal rendering of a natural number, as template literals print it (`${idx}`). */
  function NatToString(n: nat): (s: string)
    ensures |s| > 0 && AllDigits(s)
    ensures |s| > 1 ==> s[0] != '0'
  {
    if n < 10 then [DigitChar(n)]
    else NatToString(n / 10) + [DigitChar(n % 10)]
  }

  /** The value of a string of decimal digits (the empty string reads as 0, as `Number("")` does). */
  function DecimalValue(s: string): (n: nat)
    requires AllDigits(s)
  {
    if |s| == 0 then 0
    else 10 * DecimalValue(s[..|s| - 1]) + DigitValue(s[|s| - 1])
  }

  /** Reading back a rendered number gives the number: rendering is faithful. */
  lemma {:induction false} DecimalOfNatToString(n: nat)
    ensures DecimalValue(NatToString(n)) == n
  {
    if n >= 10 {
      var s := NatToString(n);
      assert s[..|s| - 1] == NatToString(n / 10);
      DecimalOfNatToString(n / 10);
    }
  }

  /** Distinct numbers render to distinct strings. */
  lemma NatToStringInjective(i: nat, j: nat)
    requires NatToString(i) == NatToString(j)
    ensures i == j
  {
    DecimalOfNatToString(i);
    DecimalOfNatToString(j);
  }
}

=== FILE: timescan.dfy ===
/**
 * Time-of-day extraction from free-form text: the global match of
 * `/(\d{1,2}:\d{2})/g` as a left-to-right scanner.
 */
module TimeScan {
  import opened Wrappers
  import opened Text
  import opened Rows

  /** An hour:minute reading; neither part is range-checked, as in the source. */
  datatype Clock = Clock(hour: nat, minute: nat) {
    /** `setHours(hour, minute)` on local midnight, in minutes since that midnight. */
    function Minutes(): int {
      hour * 60 + minute
    }
  }

  /**
   * One attempt of the regular expression at the first character of `s`: the
   * greedy `\d{1,2}` tries two hour digits first, then backtracks to one. The
   * match is returned with its length.
   */
  function MatchAt(s: string): (r: Option<(Clock, nat)>)
    ensures r.Some? ==> var (c, n) := r.value;
      && (n == 4 || n == 5) && n <= |s|
      && AllDigits(s[..n - 3]) && s[n - 3] == ':' && IsDigit(s[n - 2]) && IsDigit(s[n - 1])
      && c == Clock(DecimalValue(s[..n - 3]), 10 * DigitValue(s[n - 2]) + DigitValue(s[n - 1]))
    ensures r.None? ==> |s| == 0 || !IsDigit(s[0])
                        || (!(|s| >= 4 && s[1] == ':' && IsDigit(s[2]) && IsDigit(s[3]))
                            && !(|s| >= 5 && IsDigit(s[1]) && s[2] == ':' && IsDigit(s[3]) && IsDigit(s[4])))
    ensures r.Some? ==> (r.value.1 == 5 <==> |s| >= 5 && IsDigit(s[1]) && s[2] == ':' && IsDigit(s[3]) && IsDigit(s[4]))
  {
    if |s| >= 5 && IsDigit(s[0]) && IsDigit(s[1]) && s[2] == ':' && IsDigit(s[3]) && IsDigit(s[4]) then
      assert s[..2][..1] == s[..1] && s[..1][..0] == [];
      assert DecimalValue(s[..1]) == DigitValue(s[0]);
      assert DecimalValue(s[..2]) == 10 * DigitValue(s[0]) + DigitValue(s[1]);
      Some((Clock(10 * DigitValue(s[0]) + DigitValue(s[1]), 10 * DigitValue(s[3]) + DigitValue(s[4])), 5))
    else if |s| >= 4 && IsDigit(s[0]) && s[1] == ':' && IsDigit(s[2]) && IsDigit(s[3]) then
      assert s[..1][..0] == [];
      assert DecimalValue(s[..1]) == DigitValue(s[0]);
      Some((Clock(DigitValue(s[0]), 10 * DigitValue(s[2]) + DigitValue(s[3])), 4))
    else None
  }

  /**
   * `text.match(/(\d{1,2}:\d{2})/g)`, each match read as `[h, m]` by
   * `split(':').map(Number)`: after a match the search resumes right after it,
   * otherwise one character further on.
   */
  function Scan(s: string): (r: seq<Clock>)
    ensures forall i :: 0 <= i < |r| ==> r[i].hour < 100 && r[i].minute < 100
    ensures 4 * |r| <= |s|
    decreases |s|
  {
    if |s| == 0 then []
    else match MatchAt(s)
      case Some((c, n)) => [c] + Scan(s[n..])
      case None => Scan(s[1..])
  }

  /** `isTimeRangeValue`: a string holding at least two hour:minute readings. */
  predicate IsTimeRange(v: Option<Value>) {
    v.Some? && v.value.Str? && |Scan(v.value.s)| >= 2
  }

  /**
   * The busy range a time cell denotes: its first reading as the start and its
   * second as the end; later readings and all other text are ignored. `None`
   * for a missing, empty or non-string cell.
   */
  function ParseRange(v: Option<Value>): (r: Option<(Clock, Clock)>)
    ensures r.Some? <==> IsTimeRange(v)
    ensures r.Some? ==> r.value.0 == Scan(v.value.s)[0] && r.value.1 == Scan(v.value.s)[1]
  {
    if !Truthy(v) || !v.value.Str? then None
    else
      var matches := Scan(v.value.s);
      if |matches| < 2 then None else Some((matches[0], matches[1]))
  }

  /** Renders a reading as `H:MM` (hour below ten, unpadded) or `HH:MM`. */
  function Render(c: Clock, padded: bool): (s: string)
    requires c.hour < 100 && c.minute < 60
  {
    var mm := [DigitChar(c.minute / 10), DigitChar(c.minute % 10)];
    if c.hour < 10 && !padded then [DigitChar(c.hour)] + ":" + mm
    else [DigitChar(c.hour / 10), DigitChar(c.hour % 10)] + ":" + mm
  }

  /** Text without digits holds no reading and passes the scan straight on. */
  lemma {:induction false} ScanSkipsDigitFree(x: string, y: string)
    requires NoDigits(x)
    ensures Scan(x + y) == Scan(y)
    decreases |x|
  {
    if |x| == 0 {
      assert x + y == y;
    } else {
      assert (x + y)[0] == x[0];
      assert MatchAt(x + y) == None;
      assert (x + y)[1..] == x[1..] + y;
      ScanSkipsDigitFree(x[1..], y);
    }
  }

  /** A rendered reading is matched whole, whatever follows it. */
  lemma ScanRendered(c: Clock, padded: bool, y: string)
    requires c.hour < 100 && c.minute < 60
    ensures Scan(Render(c, padded) + y) == [c] + Scan(y)
  {
    var t := Render(c, padded);
    var s := t + y;
    assert s[|t|..] == y;
    if c.hour < 10 && !padded {
      assert s[0] == t[0] && s[1] == ':' && s[2] == t[2] && s[3] == t[3];
      assert MatchAt(s) == Some((c, 4));
    } else {
      assert s[..5] == t;
      assert MatchAt(s) == Some((c, 5));
    }
  }

  /**
   * Separator independence: two readings with any digit-free text before,
   * between and after them (`-`, `~`, the full-width `～`, `/`, or words such as
   * `Start … End …`) always scan to exactly those two readings.
   */
  lemma SeparatorIndependent(pre: string, c1: Clock, p1: bool, sep: string, c2: Clock, p2: bool, post: string)
    requires c1.hour < 100 && c1.minute < 60 && c2.hour < 100 && c2.minute < 60
    requires NoDigits(pre) && NoDigits(sep) && NoDigits(post)
    ensures Scan(pre + Render(c1, p1) + sep + Render(c2, p2) + post) == [c1, c2]
    ensures ParseRange(Some(Str(pre + Render(c1, p1) + sep + Render(c2, p2) + post))) == Some((c1, c2))
  {
    var t1 := Render(c1, p1);
    var t2 := Render(c2, p2);
    ScanSkipsDigitFree(post, []);
    assert post + [] == post;
    assert Scan(post) == [];
    ScanRendered(c2, p2, post);
    var tail := sep + (t2 + post);
    ScanSkipsDigitFree(sep, t2 + post);
    assert Scan(tail) == [c2];
    ScanRendered(c1, p1, tail);
    ScanSkipsDigitFree(pre, t1 + tail);
    assert Scan(pre + (t1 + tail)) == [c1, c2];
    ConcatRight(pre, t1, sep, t2, post);
  }

  lemma ConcatRight(a: string, b: string, c: string, d: string, e: string)
    ensures a + b + c + d + e == a + (b + (c + (d + e)))
  {
  }

  /** The global match resumes after a match, so `"123:456"` yields `"23:45"` only. */
  lemma ScanOverlappingDigits()
    ensures Scan("123:456") == [Clock(23, 45)]
  {
    assert MatchAt("123:456") == None;
    assert "123:456"[1..] == "23:456";
    assert MatchAt("23:456") == Some((Clock(23, 45), 5));
    assert "23:456"[5..] == "6";
    assert MatchAt("6") == None;
    assert "6"[1..] == "";
  }
}

=== FILE: upload.dfy ===
/** Loading a workbook: detection, the canonical schedule and the roster. */
module Upload {
  import opened Wrappers
  import opened Rows
  import opened Detection
  import opened Availability
  import opened Roster

  /**
   * A normalised schedule row under the canonical names: the three detected
   * columns copied to `服務日期`, `服務時間` and `服務人員`, then every column of the
   * row spread over them.
   */
  function CanonicalRow(row: Row, cols: Columns): Row {
    Spread(Detected(row, cols), row)
  }

  /** The object literal's three named properties, before the spread; `undefined` ones are absent. */
  function Detected(row: Row, cols: Columns): Row {
    PutOpt(PutOpt(PutOpt([], DateField, Lookup(row, cols.dateKey)),
                  TimeField, Lookup(row, cols.timeKey)),
           StaffField, Lookup(row, cols.staffKey))
  }

  /** The value a canonical field takes: the row's own column of that name wins over the detected one. */
  function CanonicalValue(row: Row, field: string, detected: string): Option<Value> {
    if HasKey(row, field) then Lookup(row, field) else Lookup(row, detected)
  }

  lemma FieldsDistinct()
    ensures DateField != TimeField && DateField != StaffField && TimeField != StaffField
  {
    assert DateField[2] != TimeField[2] && DateField[2] != StaffField[2] && TimeField[2] != StaffField[2];
  }

  /** Three assignments into an empty object, keyed by three different names. */
  lemma ThreePuts(f1: string, v1: Option<Value>, f2: string, v2: Option<Value>, f3: string, v3: Option<Value>, k: string)
    requires f1 != f2 && f1 != f3 && f2 != f3
    ensures var r := PutOpt(PutOpt(PutOpt([], f1, v1), f2, v2), f3, v3);
            && DistinctKeys(r)
            && Lookup(r, k) == (if k == f1 then v1 else if k == f2 then v2 else if k == f3 then v3 else None)
  {
    var r1 := PutOpt([], f1, v1);
    var r2 := PutOpt(r1, f2, v2);
    assert !HasKey([], k);
    PutOptLookup([], f1, v1, k);
    PutOptLookup(r1, f2, v2, k);
    PutOptLookup(r2, f3, v3, k);
    if k == f1 {
      PutOptLookup([], f1, v1, f1);
    }
  }

  /** Assigning a possibly-`undefined` value: an absent value leaves the object as it was. */
  lemma PutOptLookup(row: Row, f: string, v: Option<Value>, k: string)
    ensures DistinctKeys(row) ==> DistinctKeys(PutOpt(row, f, v))
    ensures Lookup(PutOpt(row, f, v), k) == if k == f && v.Some? then v else Lookup(row, k)
  {
  }

  lemma DetectedFields(row: Row, cols: Columns, k: string)
    ensures DistinctKeys(Detected(row, cols))
    ensures Lookup(Detected(row, cols), k) ==
              if k == DateField then Lookup(row, cols.dateKey)
              else if k == TimeField then Lookup(row, cols.timeKey)
              else if k == StaffField then Lookup(row, cols.staffKey)
              else None
  {
    FieldsDistinct();
    ThreePuts(DateField, Lookup(row, cols.dateKey), TimeField, Lookup(row, cols.timeKey),
              StaffField, Lookup(row, cols.staffKey), k);
  }

  /**
   * A canonical row has each name once; each canonical field holds the detected
   * column's value unless the row already has a column of exactly that name,
   * and every other column keeps its own value.
   */
  lemma CanonicalRowLookup(row: Row, cols: Columns, k: string)
    requires DistinctKeys(row)
    ensures DistinctKeys(CanonicalRow(row, cols))
    ensures Lookup(CanonicalRow(row, cols), DateField) == CanonicalValue(row, DateField, cols.dateKey)
    ensures Lookup(CanonicalRow(row, cols), TimeField) == CanonicalValue(row, TimeField, cols.timeKey)
    ensures Lookup(CanonicalRow(row, cols), StaffField) == CanonicalValue(row, StaffField, cols.staffKey)
    ensures k != DateField && k != TimeField && k != StaffField ==> Lookup(CanonicalRow(row, cols), k) == Lookup(row, k)
  {
    var base := Detected(row, cols);
    FieldsDistinct();
    DetectedFields(row, cols, DateField);
    DetectedFields(row, cols, TimeField);
    DetectedFields(row, cols, StaffField);
    DetectedFields(row, cols, k);
    SpreadDistinct(base, row);
    SpreadReads(base, row, DateField);
    SpreadReads(base, row, TimeField);
    SpreadReads(base, row, StaffField);
    SpreadReads(base, row, k);
  }

  /** Spreading a row with distinct names: its own names read its values, the rest read the base. */
  lemma SpreadReads(base: Row, row: Row, k: string)
    requires DistinctKeys(row)
    ensures Lookup(Spread(base, row), k) == if HasKey(row, k) then Lookup(row, k) else Lookup(base, k)
  {
    if HasKey(row, k) {
      SpreadLastWins(base, row, k);
      var v := Lookup(Spread(base, row), k).value;
      var i :| 0 <= i < |row| && row[i].key == k && row[i].val == v;
    } else {
      SpreadKeepsBase(base, row, k);
    }
  }

  datatype Loaded = Loaded(schedule: seq<Row>, staff: seq<Staff>)

  /**
   * The upload handler's data path: detect the columns (an empty sheet or a
   * missing column is an error), rewrite every row under the canonical names,
   * and take the roster from the staff sheet or, when there is none, from the
   * schedule.
   */
  function Load(rawSchedule: seq<Row>, rawStaff: seq<Row>): (r: Result<Loaded, DetectError>)
    ensures r.Failure? <==> DetectColumns(rawSchedule).Failure?
    ensures r.Failure? ==> r.error == DetectColumns(rawSchedule).error
    ensures r.Success? ==> |r.value.schedule| == |rawSchedule| > 0
  {
    match DetectColumns(rawSchedule)
    case Failure(e) => Failure(e)
    case Success(cols) =>
      var schedule := seq(|rawSchedule|, i requires 0 <= i < |rawSchedule| => CanonicalRow(NormalizeKeys(rawSchedule[i]), cols));
      Success(Loaded(schedule, BuildRoster(rawStaff, schedule)))
  }

  /**
   * Every loaded record carries the detected columns under the canonical names
   * (unless the sheet already had a column of that exact name), and the roster
   * is the staff sheet's when there is one.
   */
  lemma LoadedRecords(rawSchedule: seq<Row>, rawStaff: seq<Row>, i: int)
    requires Load(rawSchedule, rawStaff).Success?
    requires 0 <= i < |rawSchedule|
    ensures var cols := DetectColumns(rawSchedule).value;
            var loaded := Load(rawSchedule, rawStaff).value;
            var norm := NormalizeKeys(rawSchedule[i]);
            && Lookup(loaded.schedule[i], DateField) == CanonicalValue(norm, DateField, cols.dateKey)
            && Lookup(loaded.schedule[i], TimeField) == CanonicalValue(norm, TimeField, cols.timeKey)
            && Lookup(loaded.schedule[i], StaffField) == CanonicalValue(norm, StaffField, cols.staffKey)
            && (|rawStaff| > 0 ==> loaded.staff == TableRoster(rawStaff))
  {
    var cols := DetectColumns(rawSchedule).value;
    var norm := NormalizeKeys(rawSchedule[i]);
    NormalizeKeysLookup(rawSchedule[i], "");
    CanonicalRowLookup(norm, cols, "");
  }
}

=== FILE: wrappers.dfy ===
/** Failure-compatible wrappers shared by every module of the model. */
module Wrappers {

  /** A value that may be missing: JavaScript's `undefined`/`null` or a failed `find`. */
  datatype Option<+T> = None | Some(value: T) {

    /** Returns the wrapped value, or `default` when there is none (JavaScript's `a || b` on keys). */
    function GetOr(default: T): T {
      match this
      case Some(v) => v
      case None => default
    }

    /** The first of two alternatives that is present (`a || b` over optional keys). */
    function OrElse(other: Option<T>): Option<T> {
      match this
      case Some(_) => this
      case None => other
    }
  }

  /** Either a value or a structured error that the caller surfaces to the user. */
  datatype Result<+R, +E> = Success(value: R) | Failure(error: E)

  /** Dropping the last element of `a + b` drops the last element of `b`. */
  lemma SnocSplit<T>(a: seq<T>, b: seq<T>)
    requires |b| > 0
    ensures (a + b)[..|a + b| - 1] == a + b[..|b| - 1]
    ensures (a + b)[|a + b| - 1] == b[|b| - 1]
  {
  }

  lemma ConcatAssoc<T>(x: seq<T>, y: seq<T>, z: seq<T>)
    ensures (x + y) + z == x + (y + z)
  {
  }
}
